=== FILE: README.md ===
# goloop service core: a Dafny model

This project models four parts of the goloop block-execution service:

- **The content-addressed contract record** (`service/state/contract.go`).
  This is an immutable snapshot of a deployed contract. It holds the contract state, content type, EE type, deploy and audit transaction hashes, code hash and params. The code bytes are loaded lazily from the `bytes-by-hash` bucket and memoised.
  - A mutable view's `SetCode` has three cases: clearing the code, a no-op when the hash is unchanged, and a replacement that marks the code new and the view dirty.
  - `flush` writes new code to the blob bucket under its hash.
  - `Resolve`/`OnData` is the merkle-sync path.
  - A read-only wrapper rejects mutation.
- **The storage contract** (`common/db/database_test.go`). The store is a family of independent named buckets. Each bucket is an exact-key map. A key set to the empty value counts as present, and a close/reopen cycle keeps every value.
- **The service manager's decision logic** (`service/manager.go`). This covers:
  - the parent guard of `ProposeTransition` and `CreateTransition`;
  - the `Finalize` bitmask dispatch, which stops at the first error;
  - skip-transaction patch validation, and the height rule that adds the patch to `GetPatches`;
  - transaction membership;
  - how `SendTransaction` routes errors;
  - the defaults of the point queries.
- **The typed-value codec** (`common/codec.go`). This covers the custom tags, the exhaustive `Encode`/`Decode` dispatch, `DecodeAsString`, the recursive, shape-preserving `convertType`, and `DecodeAnyForResponse`.

Each Go object with a pointer receiver becomes an immutable datatype. Each method becomes a pure function that returns the updated value together with the result or error. Several collaborators are left uninterpreted: the contract record takes a hasher, the manager takes an `Env` record of functions, and the codec takes a `Helpers` record. The model assumes nothing about them beyond what its contracts state. In particular, SHA3-256 is any function with 32-byte output, and the model does not assume it is injective.

The modelled Go panic routes are `log.Panicf` and `panic`, each reached after a failed two-value type assertion (`Equal`, `Finalize`) or a failed collaborator call (`GetPatches`) or unconditionally (`SetCodeVia` on the read-only wrapper, service/state/contract.go:275-278), and the nil dereference in `ProposeTransition`. Each produces the distinguished `Base.Error.Fatal` outcome, which is kept separate from the recoverable errors. Among the panics not modelled, each listed under "## Left out":
- `DecodeAsString` excludes its panic with a precondition.
- `SendTransaction` asserts that a parsed JSON transaction is a `transaction.Transaction`. The parser collaborator is taken to return one directly.
- A nil interface argument, such as `SendPatch(nil)`, panics on its first method call. The model's argument types have no nil case.

Files:
- `base.dfy`: bytes, options, results and the error taxonomy.
- `database.dfy`: buckets and the store.
- `contract.dfy`: the contract record.
- `txpool.dfy`: pool membership and pruning.
- `manager.dfy`: the service manager.
- `codec.dfy`: the typed-value codec.

Two behaviours of the code are easy to misread, and the model follows the code in both:
- A repeated `Finalize` with the result bit emits the metric events again, because every result finalize calls `OnFinalize` on both metrics (`ServiceManager.FinalizeResultStep`). It does not deduplicate them. Pool pruning, on the other hand, is idempotent (`ServiceManager.FinalizeTwiceKeepsPools`).
- The comment at `common/db/database_test.go:79` says "HAS returns false". The assertion after it expects true, and the model follows the assertion.

## Model

| member | source | states |
|---|---|---|
| `StateContract.StateName` | service/state/contract.go:16-40 | 1, 2, 4 and 8 are "inactive", "active", "pending" and "rejected", in that order. Every other value prints as `Unknown(state=<n>)` with its decimal number. |
| `StateContract.Equal` | service/state/contract.go:80-91 | Two nil snapshots are equal. A nil snapshot never equals a non-nil one. Two records are equal exactly when state, deploy hash, audit hash and code hash agree. |
| `StateContract.EqualChecked` | service/state/contract.go:80-97 | If the argument is not a `contractSnapshotImpl`, the result is the fatal outcome. Otherwise the result is `Equal`. |
| `StateContract.EqualIsEquivalence` | service/state/contract.go:82-91 | `Equal` is reflexive, symmetric and transitive. This covers the same-instance case. |
| `StateContract.EqualIgnoresResidency` | service/state/contract.go:88-91 | Resident code, params, content type, EE type and `isNew` never affect equality. |
| `StateContract.CodeHashOf` | service/state/contract.go:99-104 | A nil record has the empty code hash. |
| `StateContract.Code` | service/state/contract.go:106-122 | Resident non-empty code is returned without reading the bucket. An empty hash gives `(nil, nil)`. An absent or zero-length stored value gives NotFound and the record is unchanged. Bytes that are found are memoised into the record and returned. |
| `StateContract.CodeIsMemoised` | service/state/contract.go:106-122 | Once `Code` has found bytes, later calls return them for any store, even one that no longer holds them. |
| `StateContract.EncodeFields` | service/state/contract.go:156-170 | The encoding is a list of exactly 7 entries. |
| `StateContract.DecodeFields` | service/state/contract.go:172-182 | A decoded record has no resident code and is not new. |
| `StateContract.EncodeDecodeRoundTrip` | service/state/contract.go:160-182 | Decoding the encoding gives back every persisted field with residency dropped. The result is `Equal` to the original, and re-encoding it gives the same field list. |
| `StateContract.Digest` | service/state/contract.go:247 | A code hash is always 32 bytes. A hash function that already has 32-byte output is used unchanged. |
| `StateContract.CodeID` | service/state/contract.go:136-142 | A non-empty deploy hash is the code id. Otherwise the id is the 32-byte hash of the encoded fields. |
| `StateContract.CodeIDIgnoresResidency` | service/state/contract.go:136-142 | The code id does not change with resident code or `isNew`, so a reloaded record has the same id. |
| `StateContract.Flush` | service/state/contract.go:184-193 | A record that is not new writes nothing. A new record writes `bytes-by-hash[codeHash] := code` and clears `isNew`. Other buckets are untouched. |
| `StateContract.FlushIsIdempotent` | service/state/contract.go:184-193 | A second flush changes neither the record nor the store. |
| `StateContract.Resolve` | service/state/contract.go:200-211 | If the bucket has no entry for the hash, exactly one `bytes-by-hash` request for that hash is registered. Otherwise the stored bytes, even empty ones, become resident and nothing is requested. |
| `StateContract.OnData` | service/state/contract.go:195-198 | The delivered bytes become resident, and no other field changes, so the record stays `Equal` to itself. |
| `StateContract.ResolveThenDeliver` | service/state/contract.go:195-211 | Either the stored bytes become resident, or the single request names the code hash and the later delivery makes its bytes resident. Either way the record's identity is unchanged. |
| `StateContract.SetCode` | service/state/contract.go:240-256 | Empty code clears code and hash, leaves `isNew` as it was, and marks dirty once. Code with the current hash changes nothing and marks nothing. Any other code sets code, hash and `isNew` and marks dirty once. |
| `StateContract.GetSnapshot` | service/state/contract.go:258-265 | A nil view gives nil. Otherwise the result is a copy of the view's record. |
| `StateContract.Reset` | service/state/contract.go:267-269 | A snapshot taken after `reset(s)` is `s`. |
| `StateContract.NewContractState` | service/state/contract.go:287-294 | A nil record gives a nil view. Otherwise the view's snapshot is the record. |
| `StateContract.SnapshotIsolation` | service/state/contract.go:258-269 | A snapshot taken before `SetCode` keeps every field. A snapshot taken after it differs only in code, code hash and `isNew`. |
| `StateContract.NewContractROState` | service/state/contract.go:280-285 | A nil record gives nil. Otherwise the result is a read-only wrapper around the record. |
| `StateContract.SetCodeVia` | service/state/contract.go:271-278 | `SetCode` on the read-only wrapper is fatal and changes nothing. On a writable view it is `SetCode`. |
| `StateContract.ContentAddressRoundTrip` | service/state/contract.go:184-193 | New code set through a view and then flushed is returned by `Code` on a reloaded record, which has nothing resident. |
| `StateContract.ClearAfterReplaceFlushesEmptyKey` | service/state/contract.go:240-246 | Clearing after an unflushed replacement keeps `isNew`, so the next flush stores the empty value under the empty key. |
| `Database.GetBucket` | common/db/database_test.go:41-46 | A bucket that was never written is empty. |
| `Database.Get` | common/db/database_test.go:65-68 | An absent key reads as nil without error. A present key reads as its value. |
| `Database.Has` | common/db/database_test.go:44-46 | `Has` is true exactly when `Get` finds a value, empty or not. |
| `Database.Set` | common/db/database_test.go:48-54 | After `Set`, the key holds the value and every other key keeps its own. |
| `Database.Delete` | common/db/database_test.go:61-68 | After `Delete`, the key is gone and every other key keeps its value. |
| `Database.StoreDelete` | common/db/database_test.go:61-63 | Deleting a key in one bucket leaves every other bucket as it was. |
| `Database.Close` | common/db/database_test.go:122-126 | Opening the closed image gives back exactly the store that was closed. |
| `Database.Open` | common/db/database_test.go:126-133 | A reopened store has every saved bucket, and an empty bucket for any name never written. |
| `Database.StoreSet` | common/db/database_test.go:116-121 | Writing a key in one bucket leaves every other bucket as it was. |
| `Database.SetThenGet` | common/db/database_test.go:48-59 | After `Set(k, v)`, `Get(k) == v` and `Has(k)`. Other keys, including prefixes of `k`, keep their values. |
| `Database.DeleteThenGet` | common/db/database_test.go:61-73 | After `Delete(k)`, `Get(k)` is nil and `Has(k)` is false. |
| `Database.EmptyValueIsPresent` | common/db/database_test.go:75-82 | `Set(k, [])` makes `Has(k)` true. The empty value is distinct from absence. |
| `Database.ReopenPreserves` | common/db/database_test.go:122-133 | Closing and reopening keeps every value in every bucket. |
| `Database.GetSetDeleteScenario` | common/db/database_test.go:27-83 | Each assertion of the get/set/delete test holds for the "hello" bucket. |
| `Database.SetReopenGetScenario` | common/db/database_test.go:93-143 | In every listed bucket, "hello" reads "world" after a reopen, and the prefix key "hell" is absent. |
| `TxPool.RemoveList` | service/manager.go:250 | The pool keeps exactly those transactions whose id is not in the finalized list. |
| `TxPool.RemoveOldTXs` | service/manager.go:251 | The pool keeps exactly the transactions stamped at or after the cut-off. |
| `TxPool.HasTx` | service/manager.go:501-503 | A pool has an id exactly when one of its pending transactions carries it. |
| `TxPool.Prune` | service/manager.go:250-251 | A transaction stays in the pool exactly when it is unlisted and not older than the cut-off. |
| `TxPool.PruneIsIdempotent` | service/manager.go:250-251 | Removing the same list with the same cut-off a second time removes nothing more. |
| `ServiceManager.CheckTransitionResult` | service/manager.go:323-332 | nil passes as nil. A complete `*transition` passes as itself. Any other implementation, or any transition that is not complete, gives ErrIllegalArgument. |
| `ServiceManager.ProposeTransition` | service/manager.go:121-139 | A guard error is returned and no transition is built. A nil parent is dereferenced, which is fatal. Otherwise the result has the normal-pool candidates under the block byte and count limits, an empty patch list and the validated flag. |
| `ServiceManager.CreateTransition` | service/manager.go:152-161 | A guard error is returned. Otherwise the result carries the given block info, the given list, the checked parent (nil is allowed) and no validated flag. |
| `ServiceManager.ParentGuard` | service/manager.go:121-161 | If the parent is not a complete transition of this package, neither constructor yields a transition. |
| `ServiceManager.SendPatch` | service/manager.go:163-178 | The slot is replaced exactly when a well-typed skip patch has height at least 1. A mistyped patch, an unknown patch or a height below 1 gives InvalidPatchData and leaves the slot unchanged. |
| `ServiceManager.GetPatches` | service/manager.go:182-216 | The patch pool is asked with count limit 0. A transaction built from the stored patch is added after the candidates exactly when `height + 1 == blockHeight`, and the size then grows by that transaction's length. Three cases are fatal: a foreign transition, a parent whose world state cannot be rebuilt, and a failure to build the transaction. |
| `ServiceManager.PatchAppliesOnlyToNextBlock` | service/manager.go:201-213 | A stored patch of height h adds one transaction to block h + 1. Any other block gets exactly the pool's candidates, and the patch builder is not consulted for it. |
| `ServiceManager.PatchDue` | service/manager.go:201-204 | A stored patch is due exactly at the block right after its height. So a patch that `SendPatch` accepts is never due before height 2. |
| `ServiceManager.SendPatchThenGetPatches` | service/manager.go:163-213 | After a patch of height h is accepted, the patch list of block h + 1 is the pool's candidates followed by the transaction built from that patch. |
| `ServiceManager.FinalizeNormalStep` | service/manager.go:244-252 | A finalize error is returned with nothing changed. Otherwise only the normal pool is pruned, by the normal list and `timestamp - threshold`. |
| `ServiceManager.FinalizePatchStep` | service/manager.go:253-259 | A finalize error is returned with nothing changed. Otherwise only the patch pool is pruned, by the patch list and the same cut-off. |
| `ServiceManager.FinalizeResultStep` | service/manager.go:260-267 | A finalize error is returned with nothing changed. Otherwise one patch metric event and one normal metric event are emitted, in that order. |
| `ServiceManager.Finalize` | service/manager.go:242-272 | Anything but this package's transition is fatal and changes nothing. Finalize never touches the patch slot or the propagated transactions. |
| `ServiceManager.FinalizeNormalOnly` | service/manager.go:244-252 | With only the normal bit set, only the normal pool changes. |
| `ServiceManager.FinalizePatchOnly` | service/manager.go:253-259 | With only the patch bit set, only the patch pool changes. |
| `ServiceManager.FinalizeStopsAtNormalError` | service/manager.go:244-247 | If the normal step fails, its error is returned and nothing has changed, whatever other bits are set. |
| `ServiceManager.FinalizeStopsAtPatchError` | service/manager.go:253-256 | If the patch step fails, the normal step's pruning is kept, the patch pool and metrics are untouched, and the patch error is returned. |
| `ServiceManager.FinalizeResultOnly` | service/manager.go:260-267 | With only the result bit set, one patch event and one normal event are emitted, and neither pool changes. |
| `ServiceManager.FinalizeStopsAtResultError` | service/manager.go:260-263 | If the result step fails, the selected pools have already been pruned, no metric event is emitted, and the result error is returned. |
| `ServiceManager.FinalizedAreNotPending` | service/manager.go:244-258 | After a successful finalize, no transaction of a finalized list is still pending in its pool. |
| `ServiceManager.FinalizeBitsIndependent` | service/manager.go:244-260 | Each finalize bit selects itself and neither of the others. Their union selects all three. |
| `ServiceManager.Then` | service/manager.go:244-267 | A step runs only when its bit is set and no earlier step failed. An earlier error is passed on unchanged, and a later success never hides it. |
| `ServiceManager.FinalizeComposes` | service/manager.go:242-272 | Finalizing with all three bits is the same as finalizing the normal bit first and then the patch and result bits. |
| `ServiceManager.FinalizeOkPools` | service/manager.go:242-272 | After a successful finalize, each selected pool has been pruned once and the other is unchanged. |
| `ServiceManager.FinalizeTwiceKeepsPools` | service/manager.go:242-272 | Repeating a successful finalize of the same transition with the same bits leaves both pools as the first call left them. This holds whatever the second call's outcome and collaborators, provided the threshold is the same. |
| `ServiceManager.FinalizeKeepsStablePools` | service/manager.go:242-272 | Whatever its outcome, `Finalize` leaves an unselected pool alone, and also a selected pool that its own pruning step would not change. |
| `ServiceManager.PrunedPoolsAreStable` | service/manager.go:250-258 | A pool pruned once by a transition's list and cut-off is left as it is by the same pruning again. |
| `ServiceManager.TransactionListFromSlice` | service/manager.go:298-307 | Block versions 1 and 2 give a list of the given transactions in the V1 or V2 format. Every other version gives nil. |
| `ServiceManager.HasTransaction` | service/manager.go:501-503 | True exactly when the id is in the normal pool or the patch pool. |
| `ServiceManager.TransactionFromBytes` | service/manager.go:275-281 | No error is ever returned. A parse failure yields nil. |
| `ServiceManager.ParseInput` | service/manager.go:336-353 | Bytes and strings are parsed as JSON, and a parse error is wrapped as InvalidTransaction. A typed transaction passes through. Any other input is InvalidTransaction. |
| `ServiceManager.SendTransaction` | service/manager.go:334-365 | A parse or admission error is returned with nothing changed and nothing propagated. Otherwise the pools are the admitted ones, the transaction is propagated, and its id is returned. |
| `ServiceManager.PropagationNeverSurfaces` | service/manager.go:359-364 | The answer from the propagation layer never changes the result. |
| `ServiceManager.BytesAndStringAgree` | service/manager.go:337-348 | JSON sent as bytes and the same JSON sent as a string are handled identically. |
| `ServiceManager.GetBalance` | service/manager.go:405-415 | A cache error passes through. An absent account has balance 0. |
| `ServiceManager.GetTotalSupply` | service/manager.go:417-430 | A cache error passes through. An unset variable reads as 0. |
| `ServiceManager.GetNetworkID` | service/manager.go:432-444 | A cache error passes through. An unset variable gives NotFound. |
| `ServiceManager.GetAPIInfo` | service/manager.go:446-463 | A non-contract address is rejected before any lookup. A cache error passes through. A missing account, or one without API info, gives NoActiveContract. |
| `ServiceManager.GetMembers` | service/manager.go:465-472 | A cache error passes through. Otherwise the result is the system account's member list. |
| `ServiceManager.GetRoundLimit` | service/manager.go:474-489 | A lookup failure or a factor of 0 gives 0. Otherwise the result is the round limit for the validator count and the factor. |
| `ServiceManager.GetMinimizeBlockGen` | service/manager.go:491-499 | A lookup failure or an unset variable gives false. |
| `ServiceManager.SystemVar` | service/manager.go:422-424 | A variable is present exactly when both the system account and the variable exist. |
| `ServiceManager.QueriesForwardCacheErrors` | service/manager.go:405-472 | Every error-returning query forwards the cache's error for an unknown result hash unchanged. `GetAPIInfo` on a non-contract address is the only exception. |
| `Codec.TagsDistinctConsecutive` | common/codec.go:12-15 | `TypeAddress` and `TypeInt` are distinct, consecutive, fit in a `uint8`, and differ from the string tag. |
| `Codec.Decode` | common/codec.go:21-32 | `TypeAddress` bytes go to `NewAddress`. `TypeInt` bytes become a HexInt. Every other tag gives InvalidTypeTag. |
| `Codec.EncodeAsWritten` | common/codec.go:34-63 | Exactly addresses and the integer kinds encode. Every other value is UnknownType. An address carries its bytes. A big.Int and a uint64 go through big-int bytes, and a HexInt through its own bytes. Every other integer goes through int64 bytes, with a `uint` first converted to int64. |
| `Codec.Encode` | common/codec.go:34-63 | An address encodes as `(TypeAddress, its bytes)`. Every integer kind, big.Int and HexInt encodes as TypeInt. A big.Int, a uint64, and a uint at or above 2^63 go through big-int bytes. A HexInt goes through its own bytes. Every other integer goes through int64 bytes with its own value. Every other value is UnknownType. |
| `Codec.IntPayloadOf` | common/codec.go:42-59 | The byte helper receives the integer's exact value. A uint64, or any value at or above 2^63, uses the big-int helper. Every other kind uses the int64 helper whenever the value fits in an int64. |
| `Codec.IntPayloadAsWritten` | common/codec.go:42-59 | A uint64 uses the big-int helper. Every other kind uses the int64 helper with its value, except that a `uint` at or above 2^63 arrives as the negative number `v - 2^64`. |
| `Codec.EqualValuesEncodeAlike` | common/codec.go:42-55 | Equal values of the int64-converted kinds encode to identical bytes, `Int64ToBytes(v)`. |
| `Codec.AddressRoundTrip` | common/codec.go:23-37 | Decoding an encoded address passes exactly its bytes to `NewAddress`. |
| `Codec.IntRoundTrip` | common/codec.go:25-59 | If the helpers invert each other, every encodable integer decodes to a HexInt of the same value. |
| `Codec.UintWrapsAsWritten` | common/codec.go:50-51 | As written, `uint(2^63)` encodes like `int64(-2^63)` and decodes to a negative number. |
| `Codec.EncodeCorrectionIsLocal` | common/codec.go:34-63 | The corrected encoder differs from the written one only for a uint at or above 2^63. |
| `Codec.DecodeAsString` | common/codec.go:86-91 | A non-nil string-tagged object yields its string. Anything else yields the default. |
| `Codec.Convert` | common/codec.go:114-149 | Bytes become HexBytes with the same content. A bool becomes a HexInt from the true or false bytes. Lists keep their length and maps keep their keys, with elements converted recursively. Other values are unchanged. |
| `Codec.ConvertList` | common/codec.go:126-135 | Each list element is converted in place and the length is kept. |
| `Codec.ConvertEntries` | common/codec.go:136-145 | Each map entry keeps its key and has its value converted. |
| `Codec.ConvertedIsReady` | common/codec.go:114-149 | No byte slice or bool remains anywhere in a converted value. |
| `Codec.ConvertIsIdempotent` | common/codec.go:114-149 | Converting a converted value changes nothing. |
| `Codec.DecodeAnyForResponse` | common/codec.go:106-112 | A decode error is returned unchanged and no conversion runs. A decoded value is converted. |

## Left out

- Concurrency is not modelled:
  - the `atomic.Value` skip-patch slot is a plain `Option`;
  - the transaction reactor is not modelled;
  - `WaitForTransaction`/`tm.Wait` and `Start`/`Term` are not modelled.
- Candidate selection by the transaction pool (`Candidate`) is an uninterpreted function of the environment, because the pool's code is not part of this model. So the block byte/count budget of a selection is not stated.
- The pool's code is not part of this model. `RemoveList` is taken to drop exactly the listed transactions, with absent ones not an error. `RemoveOldTXs` is taken to drop every transaction stamped before the cut-off.
- Several collaborators are uninterpreted functions: transition execution and the `finalize*` internals of a transition, the transition-result cache (its LRU policy is not modelled), the contract manager, eeproxy, and the scoredb variable decoders.
- `Call` and `NewQueryHandler` are left out: JSON query parsing and contract execution are outside the core.
- Several manager methods are left out because they only delegate:
  - `CreateInitialTransition`, `PatchTransition` and `CreateSyncTransition` (the last one returns nil);
  - `TransactionListFromHash`, `ReceiptFromTransactionID`, `ReceiptListFromResult` and `ValidatorListFromHash`;
  - `GenesisTransactionFromBytes`, which has the same shape as `TransactionFromBytes`.
- `NewManager` is left out; it only wires components together.
- Storage backend I/O errors are not modelled: a bucket read or write never fails. The `err != nil` branches of `Code`, `flush` and `Resolve` are therefore absent.
- `ResetDB` is left out. It only re-binds the blob bucket, which the model passes explicitly as the store.
- The in-memory MapDB backend is left out: the reopen test skips it, and the model describes persistent backends.
- `ServiceManager.CreateTransition`: the source passes a nil patch list, which the model represents as an empty V2 list.
- `ServiceManager.ProposeTransition`: the source ignores the error from `WorldStateFromSnapshot`, so the model does not consult the world state there.
- `ServiceManager.ProposeTransition` and `ServiceManager.CreateTransition`: `newTransition` is not part of this model. A new transition is assumed to start in the created step.
- `ServiceManager.SendTransaction`: the single-value assertion `ntx.(transaction.Transaction)` is not modelled. The JSON parser collaborator returns a transaction directly, so that panic cannot occur in the model.
- `Database.Get` and `StateContract.Resolve`: a key set to the empty value is assumed to read back as a present, empty (non-nil) value. The storage test only asserts that such a key is present. A backend that returns nil for a stored empty value would make `Resolve` request the data again, where the model makes the empty code resident.
- `ServiceManager.SendPatch`: a nil patch argument panics on `data.Type()` in the source. The model's `Patch` type has no nil case, so that panic is not modelled.
- `ServiceManager.GetPatches`: whether `WorldStateFromSnapshot` succeeds is an uninterpreted predicate of the environment, because state reconstruction is not part of this model.
- `ServiceManager.Finalize`: the int64 subtraction `timestamp - threshold` is unbounded here, so overflow is not modelled.
- `ServiceManager.FinalizeTwiceKeepsPools`: idempotence is stated for the pools only. A second result finalize emits the metric events again, as the code does.
- `StateContract.Equal`: Go pointer identity is replaced by value equality. The same instance is still equal to itself.
- `Codec.DecodeAsString`: a string-tagged object that holds a non-string panics in the source. The model excludes it by precondition.
- `Codec.Convert`: the source returns element errors, but no case of `convertType` can produce one. The model therefore returns the converted value directly.
- Some constants come from packages that are not part of this model:
  - The codec tags `TypeString = 4` and `TypeCustom = 10` are taken from the codec package. Only the distinctness and consecutiveness of the custom tags is used.
  - The finalize bits are taken as 1, 2 and 4.
  - The block versions are taken as 1 and 2.
  - The codec's boolean payloads are taken as `TrueBytes == [1]` and `FalseBytes == [0]`.
  - The bucket names "merkle-trie", "bytes-by-hash" and "transaction-locator-by-hash" are taken as the values of the db package's bucket constants. Only their distinctness is used.
- Cryptography and serialization are uninterpreted: SHA3-256, the binary codec behind `CodeID`, `Int64ToBytes`, `BigIntToBytes`, `HexInt.Bytes`/`SetBytes` and `NewAddress`.
- `MarshalAny`, `EncodeAny`, `MustEncodeAny`, `DecodeAny`, `MustDecodeAny` and `UnmarshalAny` are left out; they are thin wrappers over the generic codec.
- The following are outside the core and left out: logging, metrics timestamps (`time.Now`), `service/trace/logger.go`, the IISS domain store tests, and the Java integration test.

## Findings

| source | as written | input that shows it | evidently intended | confidence | as-written member | corrected member |
|---|---|---|---|---|---|---|
| common/codec.go:50-51 | A `uint` goes through `int64(obj)` before `Int64ToBytes`. | `uint(1 << 63)` reaches the encoder as -2^63. It encodes exactly like `int64(-2^63)` and decodes to a negative HexInt (`Codec.UintWrapsAsWritten`). | A `uint` outside the int64 range is encoded by value through big-int bytes, as `uint64` already is, so every integer decodes to its own value (`Codec.IntRoundTrip`). | medium; not executed | `Codec.EncodeAsWritten` | `Codec.Encode` |

=== FILE: base.dfy ===
/** Shared vocabulary of the model: bytes, optional values, results and the
    error taxonomy of the service core.

    Go `nil` byte slices and empty byte slices are both `[]` here unless a
    member has to tell them apart, in which case it uses `Option<Bytes>`.
 */
module Base {

  newtype byte = x: int | 0 <= x < 256

  type Bytes = seq<byte>

  /** A value that may be absent: a Go nil pointer or interface. */
  datatype Option<+T> = None | Some(value: T)

  /** Errors the core returns or forwards.

      `Fatal` is the distinguished invariant-violation outcome: the source
      reaches it through `log.Panicf` or `panic` (each after a failed
      two-value type assertion or a failed collaborator call, or
      unconditionally on a read-only contract's `SetCode`) or through a nil
      dereference. No ordinary caller is meant to see it.

      `Foreign` is an error produced by a collaborator that is not part of
      this model (the result cache, the transaction manager, the transition
      internals); the core forwards it unchanged, so only its identity matters.
   */
  datatype Error =
    | NotFound(what: string)
    | IllegalArgument
    | InvalidPatchData(reason: string)
    | InvalidTransaction(cause: Option<Error>)
    | NotContractAddress
    | NoActiveContract(reason: string)
    | InvalidTypeTag(tag: int)
    | UnknownType
    | DecodeFailure
    | Foreign(code: nat)
    | Fatal(reason: string)

  datatype Result<+T> = Ok(value: T) | Err(error: Error)

  /** The unit value for operations that return only an error in Go. */
  datatype Unit = Unit

  /** Decimal text of a natural number, as `%d` prints it. */
  function NatText(n: nat): (t: string)
    ensures |t| > 0
    decreases n
  {
    var d := [('0' as int + n % 10) as char];
    if n < 10 then d else NatText(n / 10) + d
  }

  function IntText(i: int): string
  {
    if i < 0 then "-" + NatText(-i) else NatText(i)
  }
}

=== FILE: codec.dfy ===
/** The typed-value codec dispatch of `common/codec.go`.

    Go's `interface{}` values become the closed datatype `Value`; the type
    switches of `Encode` and `convertType` become exhaustive matches. The
    byte helpers (`Int64ToBytes`, `BigIntToBytes`, `HexInt.Bytes`,
    `HexInt.SetBytes`, `NewAddress`) are not part of this model and are
    carried, uninterpreted, in a `Helpers` record.
 */
module Codec {
  import opened Base

  /** Generic tags of the codec package that this file relies on. */
  const TypeString := 4
  const TypeCustom := 10

  /** The custom tags of this codec: consecutive, starting at `TypeCustom`. */
  const TypeAddress := TypeCustom
  const TypeInt := TypeCustom + 1

  /** Go integer kinds accepted by `Encode`. */
  datatype IntKind = KInt | KInt16 | KInt32 | KInt64 | KUint | KUint16 | KUint32 | KUint64

  const Two63 := 0x8000_0000_0000_0000
  const Two64 := 0x1_0000_0000_0000_0000

  /** The values a Go variable of each kind can hold (`int` and `uint` are
      the 64-bit platform widths). */
  predicate InRange(k: IntKind, v: int)
  {
    match k
    case KInt => -Two63 <= v < Two63
    case KInt16 => -0x8000 <= v < 0x8000
    case KInt32 => -0x8000_0000 <= v < 0x8000_0000
    case KInt64 => -Two63 <= v < Two63
    case KUint => 0 <= v < Two64
    case KUint16 => 0 <= v < 0x1_0000
    case KUint32 => 0 <= v < 0x1_0000_0000
    case KUint64 => 0 <= v < Two64
  }

  datatype Entry = Entry(key: string, val: Value)

  /** A decoded or encodable value. `Dict` lists the entries of a Go
      `map[string]interface{}` in one iteration order. */
  datatype Value =
    | Nil
    | Address(raw: Bytes)
    | Int(kind: IntKind, v: int)
    | BigInt(n: int)
    | HexInt(h: int)
    | ByteSlice(b: Bytes)
    | HexBytes(hb: Bytes)
    | Bool(flag: bool)
    | Str(s: string)
    | List(items: seq<Value>)
    | Dict(entries: seq<Entry>)

  /** The uninterpreted byte helpers. */
  datatype Helpers = Helpers(
    int64ToBytes: int -> Bytes,
    bigIntToBytes: int -> Bytes,
    hexIntBytes: int -> Bytes,
    hexIntSetBytes: Bytes -> int,
    newAddress: Bytes -> Value)

  /** What the round-trip properties assume of the helpers: decoding a
      `HexInt` from bytes inverts each of the three integer encoders. */
  ghost predicate Lawful(h: Helpers)
  {
    && (forall x :: h.hexIntSetBytes(h.bigIntToBytes(x)) == x)
    && (forall x :: -Two63 <= x < Two63 ==> h.hexIntSetBytes(h.int64ToBytes(x)) == x)
    && (forall x :: h.hexIntSetBytes(h.hexIntBytes(x)) == x)
  }

  datatype Encoded = Encoded(tag: int, data: Bytes)

  /** Which byte helper an integer is handed to, and the number it is given. */
  datatype IntPayload = Small(x: int) | Big(n: int)

  function ArgValue(a: IntPayload): int
  {
    match a
    case Small(x) => x
    case Big(n) => n
  }

  /** Go's `int64(x)` conversion of a 64-bit unsigned value. */
  function ToInt64(v: int): int
  {
    if v >= Two63 then v - Two64 else v
  }

  /** The argument choice as written: every kind but `uint64` goes through
      `int64(...)`, which wraps a `uint` at or above 2^63. */
  function IntPayloadAsWritten(k: IntKind, v: int): (a: IntPayload)
    ensures k == KUint64 ==> a == Big(v)
    ensures k != KUint64 && k != KUint ==> a == Small(v)
    ensures k == KUint && v < Two63 ==> a == Small(v)
    ensures k == KUint && Two63 <= v < Two64 ==> a == Small(v - Two64) && a.x < 0
  {
    match k
    case KUint64 => Big(v)
    case KUint => Small(ToInt64(v))
    case _ => Small(v)
  }

  /** The corrected choice: a `uint` outside the int64 range goes through
      big-int bytes, as `uint64` does; everything else is unchanged. */
  function IntPayloadOf(k: IntKind, v: int): (a: IntPayload)
    requires InRange(k, v)
    ensures ArgValue(a) == v
    ensures a.Small? ==> -Two63 <= a.x < Two63
    ensures k != KUint64 && -Two63 <= v < Two63 ==> a == Small(v)
    ensures k == KUint64 ==> a == Big(v)
    ensures v >= Two63 ==> a == Big(v)
  {
    match k
    case KUint64 => Big(v)
    case KUint => if v < Two63 then Small(v) else Big(v)
    case _ => Small(v)
  }

  function RenderInt(h: Helpers, a: IntPayload): Bytes
  {
    match a
    case Small(x) => h.int64ToBytes(x)
    case Big(n) => h.bigIntToBytes(n)
  }

  /** Values `Encode` accepts: the custom kinds, with integers in range. */
  predicate Encodable(v: Value)
  {
    match v
    case Address(_) => true
    case BigInt(_) => true
    case HexInt(_) => true
    case Int(k, x) => InRange(k, x)
    case _ => false
  }

  /** `typeCodec.Encode`, as written in the source. */
  function EncodeAsWritten(h: Helpers, v: Value): (r: Result<Encoded>)
    ensures r.Ok? <==> v.Address? || v.BigInt? || v.HexInt? || v.Int?
    ensures r.Err? ==> r.error == UnknownType
    ensures v.Address? ==> r == Ok(Encoded(TypeAddress, v.raw))
    ensures v.BigInt? ==> r == Ok(Encoded(TypeInt, h.bigIntToBytes(v.n)))
    ensures v.HexInt? ==> r == Ok(Encoded(TypeInt, h.hexIntBytes(v.h)))
    ensures v.Int? && v.kind == KUint64 ==> r == Ok(Encoded(TypeInt, h.bigIntToBytes(v.v)))
    ensures v.Int? && v.kind == KUint ==> r == Ok(Encoded(TypeInt, h.int64ToBytes(ToInt64(v.v))))
    ensures v.Int? && v.kind != KUint64 && v.kind != KUint ==> r == Ok(Encoded(TypeInt, h.int64ToBytes(v.v)))
  {
    match v
    case Address(raw) => Ok(Encoded(TypeAddress, raw))
    case BigInt(n) => Ok(Encoded(TypeInt, h.bigIntToBytes(n)))
    case HexInt(x) => Ok(Encoded(TypeInt, h.hexIntBytes(x)))
    case Int(k, x) => Ok(Encoded(TypeInt, RenderInt(h, IntPayloadAsWritten(k, x))))
    case _ => Err(UnknownType)
  }

  /** `typeCodec.Encode` with the `uint` conversion corrected. */
  function Encode(h: Helpers, v: Value): (r: Result<Encoded>)
    requires v.Int? ==> InRange(v.kind, v.v)
    ensures r.Ok? <==> Encodable(v)
    ensures r.Err? ==> r.error == UnknownType
    ensures v.Address? ==> r == Ok(Encoded(TypeAddress, v.raw))
    ensures v.Int? || v.BigInt? || v.HexInt? ==> r.Ok? && r.value.tag == TypeInt
    ensures v.BigInt? ==> r == Ok(Encoded(TypeInt, h.bigIntToBytes(v.n)))
    ensures v.HexInt? ==> r == Ok(Encoded(TypeInt, h.hexIntBytes(v.h)))
    // uint64, and a uint beyond the int64 range, go through big-int bytes.
    ensures v.Int? && (v.kind == KUint64 || v.v >= Two63) ==> r == Ok(Encoded(TypeInt, h.bigIntToBytes(v.v)))
    // Every other integer goes through int64 bytes, with its own value.
    ensures v.Int? && v.kind != KUint64 && v.v < Two63 ==> r == Ok(Encoded(TypeInt, h.int64ToBytes(v.v)))
  {
    match v
    case Address(raw) => Ok(Encoded(TypeAddress, raw))
    case BigInt(n) => Ok(Encoded(TypeInt, h.bigIntToBytes(n)))
    case HexInt(x) => Ok(Encoded(TypeInt, h.hexIntBytes(x)))
    case Int(k, x) => Ok(Encoded(TypeInt, RenderInt(h, IntPayloadOf(k, x))))
    case _ => Err(UnknownType)
  }

  /** `typeCodec.Decode`: the two custom tags, and nothing else. */
  function Decode(h: Helpers, tag: int, data: Bytes): (r: Result<Value>)
    ensures tag == TypeAddress ==> r == Ok(h.newAddress(data))
    ensures tag == TypeInt ==> r == Ok(HexInt(h.hexIntSetBytes(data)))
    ensures tag != TypeAddress && tag != TypeInt ==> r == Err(InvalidTypeTag(tag))
  {
    if tag == TypeAddress then Ok(h.newAddress(data))
    else if tag == TypeInt then Ok(HexInt(h.hexIntSetBytes(data)))
    else Err(InvalidTypeTag(tag))
  }

  /** The custom tags are distinct, consecutive, and fit in a `uint8`. */
  lemma TagsDistinctConsecutive()
    ensures TypeAddress != TypeInt && TypeInt == TypeAddress + 1
    ensures 0 <= TypeAddress < 256 && 0 <= TypeInt < 256
    ensures TypeString != TypeAddress && TypeString != TypeInt
  {
  }

  /** Decoding an encoded address hands exactly its bytes to `NewAddress`. */
  lemma AddressRoundTrip(h: Helpers, raw: Bytes)
    ensures var e := Encode(h, Address(raw));
      e.Ok? && Decode(h, e.value.tag, e.value.data) == Ok(h.newAddress(raw))
  {
  }

  /** Integers of the int64-converted kinds with the same value encode to
      the same bytes, whatever the kind (a value both kinds hold and that
      fits in an int64, which excludes only a `uint` at or above 2^63). */
  lemma EqualValuesEncodeAlike(h: Helpers, k1: IntKind, k2: IntKind, v: int)
    requires k1 != KUint64 && k2 != KUint64
    requires InRange(k1, v) && InRange(k2, v) && v < Two63
    ensures Encode(h, Int(k1, v)) == Encode(h, Int(k2, v)) == Ok(Encoded(TypeInt, h.int64ToBytes(v)))
  {
  }

  /** Every encodable integer decodes back to a `HexInt` of the same value. */
  lemma IntRoundTrip(h: Helpers, v: Value)
    requires Lawful(h)
    requires v.Int? || v.BigInt? || v.HexInt?
    requires v.Int? ==> InRange(v.kind, v.v)
    ensures var e := Encode(h, v);
      var n := match v case Int(_, x) => x case BigInt(x) => x case HexInt(x) => x case _ => 0;
      e.Ok? && Decode(h, e.value.tag, e.value.data) == Ok(HexInt(n))
  {
    if v.Int? {
      var a := IntPayloadOf(v.kind, v.v);
      assert ArgValue(a) == v.v;
      if a.Small? {
        assert h.hexIntSetBytes(h.int64ToBytes(a.x)) == a.x;
      } else {
        assert h.hexIntSetBytes(h.bigIntToBytes(a.n)) == a.n;
      }
    }
  }

  /** As written, a `uint` of 2^63 reaches the int64 encoder as -2^63: it
      encodes exactly like the int64 -2^63 and decodes to a negative number. */
  lemma UintWrapsAsWritten(h: Helpers)
    requires Lawful(h)
    ensures InRange(KUint, Two63) && InRange(KInt64, -Two63)
    ensures EncodeAsWritten(h, Int(KUint, Two63)) == EncodeAsWritten(h, Int(KInt64, -Two63))
    ensures Decode(h, TypeInt, EncodeAsWritten(h, Int(KUint, Two63)).value.data) == Ok(HexInt(-Two63))
    ensures ArgValue(IntPayloadAsWritten(KUint, Two63)) != Two63
  {
    assert h.hexIntSetBytes(h.int64ToBytes(-Two63)) == -Two63;
  }

  /** The two encoders differ only on a `uint` at or above 2^63. */
  lemma EncodeCorrectionIsLocal(h: Helpers, v: Value)
    requires v.Int? ==> InRange(v.kind, v.v)
    requires !(v.Int? && v.kind == KUint && v.v >= Two63)
    ensures Encode(h, v) == EncodeAsWritten(h, v)
  {
  }

  /** A serialized object: a tag and the object the codec decoded for it. */
  datatype TypedObj = TypedObj(tag: int, obj: Value)

  /** `DecodeAsString`: the stored string for a string object, otherwise
      the default. The source's single-value type assertion panics on a
      string-tagged object that holds anything else; that is excluded here. */
  function DecodeAsString(o: Option<TypedObj>, dflt: string): (r: string)
    requires o.Some? && o.value.tag == TypeString ==> o.value.obj.Str?
    ensures o.Some? && o.value.tag == TypeString ==> r == o.value.obj.s
    ensures o.None? || o.value.tag != TypeString ==> r == dflt
  {
    if o.Some? && o.value.tag == TypeString then o.value.obj.s else dflt
  }

  const TrueBytes: Bytes := [1]
  const FalseBytes: Bytes := [0]

  /** The response form of a single non-container value. */
  function ConvertLeaf(h: Helpers, v: Value): Value
  {
    match v
    case ByteSlice(b) => HexBytes(b)
    case Bool(f) => HexInt(h.hexIntSetBytes(if f then TrueBytes else FalseBytes))
    case _ => v
  }

  /** Reference relation for `convertType`: the result has the same shape,
      with every leaf in response form. */
  predicate ConvertsTo(h: Helpers, v: Value, w: Value)
  {
    match v
    case List(xs) =>
      w.List? && |w.items| == |xs|
      && forall i :: 0 <= i < |xs| ==> ConvertsTo(h, xs[i], w.items[i])
    case Dict(es) =>
      w.Dict? && |w.entries| == |es|
      && forall i :: 0 <= i < |es| ==>
        w.entries[i].key == es[i].key && ConvertsTo(h, es[i].val, w.entries[i].val)
    case _ => w == ConvertLeaf(h, v)
  }

  /** `convertType`. The source returns the first element error it meets,
      but no case produces an error, so the conversion cannot fail and the
      model returns the converted value itself. */
  function Convert(h: Helpers, v: Value): (w: Value)
    ensures ConvertsTo(h, v, w)
  {
    match v
    case List(xs) => List(ConvertList(h, xs))
    case Dict(es) => Dict(ConvertEntries(h, es))
    case _ => ConvertLeaf(h, v)
  }

  function ConvertList(h: Helpers, xs: seq<Value>): (ws: seq<Value>)
    ensures |ws| == |xs|
    ensures forall i :: 0 <= i < |xs| ==> ConvertsTo(h, xs[i], ws[i])
  {
    if xs == [] then []
    else [Convert(h, xs[0])] + ConvertList(h, xs[1..])
  }

  function ConvertEntries(h: Helpers, es: seq<Entry>): (ws: seq<Entry>)
    ensures |ws| == |es|
    ensures forall i :: 0 <= i < |es| ==>
      ws[i].key == es[i].key && ConvertsTo(h, es[i].val, ws[i].val)
  {
    if es == [] then []
    else [Entry(es[0].key, Convert(h, es[0].val))] + ConvertEntries(h, es[1..])
  }

  /** A value with no raw bytes and no booleans left anywhere in it. */
  predicate ResponseReady(w: Value)
  {
    match w
    case ByteSlice(_) => false
    case Bool(_) => false
    case List(xs) => forall i :: 0 <= i < |xs| ==> ResponseReady(xs[i])
    case Dict(es) => forall i :: 0 <= i < |es| ==> ResponseReady(es[i].val)
    case _ => true
  }

  /** Whatever is converted comes out response-ready. */
  lemma {:induction false} ConvertedIsReady(h: Helpers, v: Value, w: Value)
    requires ConvertsTo(h, v, w)
    ensures ResponseReady(w)
  {
    match v
    case List(xs) =>
      forall i | 0 <= i < |xs| ensures ResponseReady(w.items[i]) {
        ConvertedIsReady(h, xs[i], w.items[i]);
      }
    case Dict(es) =>
      forall i | 0 <= i < |es| ensures ResponseReady(w.entries[i].val) {
        ConvertedIsReady(h, es[i].val, w.entries[i].val);
      }
    case _ =>
  }

  /** A response-ready value converts to itself. */
  lemma {:induction false} ReadyConvertsToItself(h: Helpers, w: Value)
    requires ResponseReady(w)
    ensures ConvertsTo(h, w, w)
  {
    match w
    case List(xs) =>
      forall i | 0 <= i < |xs| ensures ConvertsTo(h, xs[i], xs[i]) {
        ReadyConvertsToItself(h, xs[i]);
      }
    case Dict(es) =>
      forall i | 0 <= i < |es| ensures ConvertsTo(h, es[i].val, es[i].val) {
        ReadyConvertsToItself(h, es[i].val);
      }
    case _ =>
  }

  /** `ConvertsTo` relates each value to exactly one result. */
  lemma {:induction false} ConvertsToIsFunctional(h: Helpers, v: Value, w1: Value, w2: Value)
    requires ConvertsTo(h, v, w1) && ConvertsTo(h, v, w2)
    ensures w1 == w2
  {
    match v
    case List(xs) =>
      forall i | 0 <= i < |xs| ensures w1.items[i] == w2.items[i] {
        ConvertsToIsFunctional(h, xs[i], w1.items[i], w2.items[i]);
      }
      assert w1.items == w2.items;
    case Dict(es) =>
      forall i | 0 <= i < |es| ensures w1.entries[i] == w2.entries[i] {
        ConvertsToIsFunctional(h, es[i].val, w1.entries[i].val, w2.entries[i].val);
      }
      assert w1.entries == w2.entries;
    case _ =>
  }

  /** Converting twice is converting once. */
  lemma ConvertIsIdempotent(h: Helpers, v: Value)
    ensures Convert(h, Convert(h, v)) == Convert(h, v)
  {
    var w := Convert(h, v);
    ConvertedIsReady(h, v, w);
    ReadyConvertsToItself(h, w);
    ConvertsToIsFunctional(h, w, w, Convert(h, w));
  }

  /** `DecodeAnyForResponse`: a decode error is returned unchanged and no
      conversion runs; a decoded value is converted. `decodeAny` is the
      generic codec's decoder, which is not part of this model. */
  function DecodeAnyForResponse(h: Helpers, decodeAny: TypedObj -> Result<Value>, o: TypedObj): (r: Result<Value>)
    ensures decodeAny(o).Err? ==> r == decodeAny(o)
    ensures decodeAny(o).Ok? ==> r.Ok? && ConvertsTo(h, decodeAny(o).value, r.value)
  {
    var d := decodeAny(o);
    if d.Err? then d else Ok(Convert(h, d.value))
  }
}

=== FILE: contract.dfy ===
/** The content-addressed contract record of `service/state/contract.go`.

    A `Snapshot` is one `contractSnapshotImpl`: the persisted fields plus the
    resident `code` bytes and the `isNew` flag. The shared blob bucket `bk`
    that every snapshot points at is the `bytes-by-hash` bucket of the
    `Database.Store` each operation takes and, where it writes, returns.
    Pointer-receiver mutation (memoising `code`, clearing `isNew`) is
    modelled by returning the updated snapshot.

    SHA3-256 is `Digest(hash, _)` for an arbitrary `hash`: any function whose
    output is 32 bytes long. The model assumes nothing else about it, in
    particular not injectivity.
 */
module StateContract {
  import opened Base
  import opened Database

  const HashLen := 32

  /** A hash function before its output is fitted to the digest length. */
  type Hasher = Bytes -> Bytes

  /** The 32-byte digest `h` gives for `b`: the first 32 bytes of `h(b)`,
      zero-padded when shorter. Every function with 32-byte output is
      `Digest(h, _)` for some `h` (itself), and no other function is. */
  function Digest(h: Hasher, b: Bytes): (d: Bytes)
    ensures |d| == HashLen
    ensures |h(b)| == HashLen ==> d == h(b)
  {
    var raw := h(b);
    if |raw| >= HashLen then raw[..HashLen] else raw + seq(HashLen - |raw|, _ => 0 as byte)
  }

  /** `ContractState` bit values. */
  const CSInactive := 1
  const CSActive := 2
  const CSPending := 4
  const CSRejected := 8

  /** `ContractState.String()`: each of the four state bits has its own
      name; any other value is reported with its decimal number. */
  function StateName(cs: int): (name: string)
    ensures cs == CSInactive ==> name == "inactive"
    ensures cs == CSActive ==> name == "active"
    ensures cs == CSPending ==> name == "pending"
    ensures cs == CSRejected ==> name == "rejected"
    ensures cs !in {CSInactive, CSActive, CSPending, CSRejected} ==>
      name == "Unknown(state=" + IntText(cs) + ")"
    ensures cs in {CSInactive, CSActive, CSPending, CSRejected} <==> name in {"inactive", "active", "pending", "rejected"}
  {
    if cs == CSInactive then "inactive"
    else if cs == CSActive then "active"
    else if cs == CSPending then "pending"
    else if cs == CSRejected then "rejected"
    else "Unknown(state=" + IntText(cs) + ")"
  }

  datatype Snapshot = Snapshot(
    isNew: bool,
    state: int,
    contentType: string,
    eeType: string,
    deployTxHash: Bytes,
    auditTxHash: Bytes,
    codeHash: Bytes,
    code: Bytes,
    params: Bytes)

  /** What `Equal` compares: the logical identity of a contract record. */
  datatype Identity = Identity(state: int, deployTxHash: Bytes, auditTxHash: Bytes, codeHash: Bytes)

  function IdentityOf(s: Snapshot): Identity
  {
    Identity(s.state, s.deployTxHash, s.auditTxHash, s.codeHash)
  }

  /** `Equal` between two `*contractSnapshotImpl` values, either of which may
      be nil. The same instance is equal to itself, which the value model
      covers by reflexivity; see `EqualIsEquivalence`. */
  function Equal(a: Option<Snapshot>, b: Option<Snapshot>): (r: bool)
    ensures a.None? && b.None? ==> r
    ensures a.None? != b.None? ==> !r
    ensures a.Some? && b.Some? ==> (r <==> IdentityOf(a.value) == IdentityOf(b.value))
  {
    if a == b then true
    else if a.None? || b.None? then false
    else
      a.value.state == b.value.state
      && a.value.deployTxHash == b.value.deployTxHash
      && a.value.auditTxHash == b.value.auditTxHash
      && a.value.codeHash == b.value.codeHash
  }

  /** A snapshot argument to `Equal`: the concrete record, or another
      implementation of the `ContractSnapshot` interface. */
  datatype Other = Impl(snap: Option<Snapshot>) | OtherImpl

  /** `Equal` with its type assertion: any other implementation is fatal. */
  function EqualChecked(a: Option<Snapshot>, other: Other): (r: Result<bool>)
    ensures other.OtherImpl? <==> r.Err?
    ensures r.Err? ==> r.error.Fatal?
    ensures other.Impl? ==> r == Ok(Equal(a, other.snap))
  {
    match other
    case Impl(b) => Ok(Equal(a, b))
    case OtherImpl => Err(Fatal("Invalid object"))
  }

  lemma EqualIsEquivalence(a: Option<Snapshot>, b: Option<Snapshot>, c: Option<Snapshot>)
    ensures Equal(a, a)
    ensures Equal(a, b) == Equal(b, a)
    ensures Equal(a, b) && Equal(b, c) ==> Equal(a, c)
  {
  }

  /** Equality ignores the resident bytes and the fields outside the identity. */
  lemma EqualIgnoresResidency(s: Snapshot, code: Bytes, params: Bytes, contentType: string, eeType: string, isNew: bool)
    ensures Equal(Some(s), Some(s.(code := code, params := params, contentType := contentType, eeType := eeType, isNew := isNew)))
  {
  }

  /** `CodeHash()`: nil for a nil receiver. */
  function CodeHashOf(s: Option<Snapshot>): (h: Bytes)
    ensures s.None? ==> h == []
    ensures s.Some? ==> h == s.value.codeHash
  {
    match s
    case None => []
    case Some(snap) => snap.codeHash
  }

  /** Result of a `Code()` call: the (possibly memoised) snapshot and what
      the call returned. `Ok([])` is the source's `(nil, nil)`. */
  datatype CodeRead = CodeRead(snap: Snapshot, result: Result<Bytes>)

  /** `Code()`: resident bytes first, then the blob bucket keyed by hash. */
  function Code(s: Snapshot, st: Store): (r: CodeRead)
    ensures |s.code| > 0 ==> r == CodeRead(s, Ok(s.code))
    ensures |s.code| == 0 && |s.codeHash| == 0 ==> r == CodeRead(s, Ok([]))
    ensures |s.code| == 0 && |s.codeHash| > 0 ==>
      var stored := Get(GetBucket(st, BytesByHash), s.codeHash);
      if stored.None? || |stored.value| == 0 then r.snap == s && r.result.Err? && r.result.error.NotFound?
      else r == CodeRead(s.(code := stored.value), Ok(stored.value))
    ensures r.snap == s || r.snap == s.(code := r.snap.code)
  {
    if |s.code| == 0 then
      if |s.codeHash| == 0 then CodeRead(s, Ok([]))
      else
        var stored := Get(GetBucket(st, BytesByHash), s.codeHash);
        if stored.None? || |stored.value| == 0 then CodeRead(s, Err(NotFound("FAIL to find code by codeHash")))
        else CodeRead(s.(code := stored.value), Ok(stored.value))
    else CodeRead(s, Ok(s.code))
  }

  /** Once `Code()` has found bytes, the snapshot answers from memory for
      every store, including one that has since lost the blob. */
  lemma CodeIsMemoised(s: Snapshot, st: Store, later: Store)
    requires Code(s, st).result.Ok?
    requires |Code(s, st).result.value| > 0
    ensures Code(Code(s, st).snap, later) == Code(s, st)
  {
  }

  /** A field of the record's binary encoding. */
  datatype Field = IntField(i: int) | StrField(s: string) | BytesField(b: Bytes)

  const SnapshotEntries := 7

  /** `RLPEncodeSelf`: the persisted field list, in order. */
  function EncodeFields(s: Snapshot): (fs: seq<Field>)
    ensures |fs| == SnapshotEntries
  {
    [IntField(s.state), StrField(s.contentType), StrField(s.eeType),
     BytesField(s.deployTxHash), BytesField(s.auditTxHash),
     BytesField(s.codeHash), BytesField(s.params)]
  }

  /** `RLPDecodeSelf` into a fresh record: nothing resident, not new. */
  function DecodeFields(fs: seq<Field>): (r: Result<Snapshot>)
    ensures r.Ok? ==> !r.value.isNew && r.value.code == []
  {
    if |fs| == SnapshotEntries && fs[0].IntField? && fs[1].StrField? && fs[2].StrField?
       && fs[3].BytesField? && fs[4].BytesField? && fs[5].BytesField? && fs[6].BytesField?
    then Ok(Snapshot(false, fs[0].i, fs[1].s, fs[2].s, fs[3].b, fs[4].b, fs[5].b, [], fs[6].b))
    else Err(DecodeFailure)
  }

  /** The persisted form of a snapshot: what a reload from storage yields. */
  function Persisted(s: Snapshot): Snapshot
  {
    s.(isNew := false, code := [])
  }

  /** Storing and reloading a record keeps every persisted field, drops only
      residency, and yields a record `Equal` to the original. */
  lemma EncodeDecodeRoundTrip(s: Snapshot)
    ensures DecodeFields(EncodeFields(s)) == Ok(Persisted(s))
    ensures Equal(Some(s), Some(Persisted(s)))
    ensures EncodeFields(Persisted(s)) == EncodeFields(s)
  {
  }

  /** `CodeID()`: the deploy transaction hash when there is one, otherwise
      the hash of the record's binary encoding (`marshal` stands for the
      binary codec). */
  function CodeID(s: Snapshot, hash: Hasher, marshal: seq<Field> -> Bytes): (id: Bytes)
    ensures |s.deployTxHash| > 0 ==> id == s.deployTxHash
    ensures |s.deployTxHash| == 0 ==> id == Digest(hash, marshal(EncodeFields(s))) && |id| == HashLen
  {
    if |s.deployTxHash| > 0 then s.deployTxHash
    else Digest(hash, marshal(EncodeFields(s)))
  }

  /** A code id depends only on persisted fields, never on residency. */
  lemma CodeIDIgnoresResidency(s: Snapshot, hash: Hasher, marshal: seq<Field> -> Bytes, code: Bytes, isNew: bool)
    ensures CodeID(s.(code := code, isNew := isNew), hash, marshal) == CodeID(s, hash, marshal)
    ensures CodeID(Persisted(s), hash, marshal) == CodeID(s, hash, marshal)
  {
  }

  /** `flush()`: a new record writes its code under its hash, once. */
  function Flush(s: Snapshot, st: Store): (r: (Snapshot, Store))
    ensures !s.isNew ==> r == (s, st)
    ensures s.isNew ==>
      && r.0 == s.(isNew := false)
      && GetBucket(r.1, BytesByHash) == GetBucket(st, BytesByHash)[s.codeHash := s.code]
    ensures forall id :: id != BytesByHash ==> GetBucket(r.1, id) == GetBucket(st, id)
  {
    if !s.isNew then (s, st)
    else (s.(isNew := false), StoreSet(st, BytesByHash, s.codeHash, s.code))
  }

  lemma FlushIsIdempotent(s: Snapshot, st: Store)
    ensures var (s1, st1) := Flush(s, st); Flush(s1, st1) == (s1, st1)
  {
  }

  /** A deferred data request registered with the merkle builder. */
  datatype Request = Request(bucket: BucketID, key: Bytes)

  /** `Resolve()`: take the code from the blob bucket when it is there
      (an empty stored value counts as there), otherwise ask the builder for
      it, naming this snapshot as the `OnData` target. */
  function Resolve(s: Snapshot, st: Store): (r: (Snapshot, seq<Request>))
    ensures Get(GetBucket(st, BytesByHash), s.codeHash).None? ==>
      r == (s, [Request(BytesByHash, s.codeHash)])
    ensures Get(GetBucket(st, BytesByHash), s.codeHash).Some? ==>
      r == (s.(code := GetBucket(st, BytesByHash)[s.codeHash]), [])
  {
    var stored := Get(GetBucket(st, BytesByHash), s.codeHash);
    if stored.None? then (s, [Request(BytesByHash, s.codeHash)])
    else (s.(code := stored.value), [])
  }

  /** `OnData()`: the builder delivers the requested bytes. */
  function OnData(s: Snapshot, bs: Bytes): (r: Snapshot)
    ensures r.code == bs && Equal(Some(r), Some(s))
    ensures r == s.(code := bs)
  {
    s.(code := bs)
  }

  /** Whichever path `Resolve` takes, the snapshot ends up holding the bytes
      stored (or later delivered) under its hash, and stays `Equal` to itself. */
  lemma ResolveThenDeliver(s: Snapshot, st: Store, delivered: Bytes)
    ensures var (s1, reqs) := Resolve(s, st);
      && Equal(Some(s1), Some(s))
      && (|reqs| == 0 ==> s1.code == GetBucket(st, BytesByHash)[s.codeHash])
      && (|reqs| == 1 ==> reqs[0].key == s.codeHash && OnData(s1, delivered).code == delivered)
  {
  }

  /** The mutable view `contractImpl`. `markDirty` is the caller's hook;
      each operation reports how many times it would have called it. */
  datatype ContractView = ContractView(snap: Snapshot)

  datatype SetCodeOutcome = SetCodeOutcome(view: ContractView, dirtied: nat)

  /** `SetCode()` on a writable view. */
  function SetCode(c: ContractView, code: Bytes, hash: Hasher): (r: SetCodeOutcome)
    // Clearing: code and hash both empty, isNew untouched, one dirty mark.
    ensures |code| == 0 ==>
      r.view.snap == c.snap.(code := [], codeHash := []) && r.dirtied == 1
    // Same content hash: nothing changes and nobody is told.
    ensures |code| > 0 && Digest(hash, code) == c.snap.codeHash ==>
      r == SetCodeOutcome(c, 0)
    // Replacement: the new code is new, addressed by its hash, and dirty.
    ensures |code| > 0 && Digest(hash, code) != c.snap.codeHash ==>
      r.view.snap == c.snap.(code := code, codeHash := Digest(hash, code), isNew := true) && r.dirtied == 1
  {
    if |code| == 0 then
      SetCodeOutcome(ContractView(c.snap.(code := [], codeHash := [])), 1)
    else
      var codeHash := Digest(hash, code);
      if codeHash == c.snap.codeHash then SetCodeOutcome(c, 0)
      else SetCodeOutcome(ContractView(c.snap.(code := code, codeHash := codeHash, isNew := true)), 1)
  }

  /** `getSnapshot()`: a copy of the view's record; nil for a nil view. */
  function GetSnapshot(c: Option<ContractView>): (r: Option<Snapshot>)
    ensures c.None? <==> r.None?
    ensures c.Some? ==> r.value == c.value.snap
  {
    match c
    case None => None
    case Some(v) => Some(v.snap)
  }

  /** `reset()`: overwrite the view with a copy of a record. */
  function Reset(c: ContractView, s: Snapshot): (r: ContractView)
    ensures GetSnapshot(Some(r)) == Some(s)
  {
    ContractView(s)
  }

  /** `newContractState()`: nil in, nil out; otherwise a view reset to the record. */
  function NewContractState(s: Option<Snapshot>): (r: Option<ContractView>)
    ensures s.None? <==> r.None?
    ensures GetSnapshot(r) == s
  {
    match s
    case None => None
    case Some(snap) => Some(Reset(ContractView(Snapshot(false, 0, "", "", [], [], [], [], [])), snap))
  }

  /** A snapshot handed out before a `SetCode` keeps every field, and a
      snapshot taken after it differs from the earlier one only in `code`,
      `codeHash` and `isNew`. */
  lemma SnapshotIsolation(s: Snapshot, code: Bytes, hash: Hasher)
    ensures var view := NewContractState(Some(s));
      var taken := GetSnapshot(view);
      var after := SetCode(view.value, code, hash).view;
      && taken == Some(s)
      && GetSnapshot(Some(after)) == Some(s.(code := after.snap.code, codeHash := after.snap.codeHash, isNew := after.snap.isNew))
  {
  }

  /** A handle on a contract: a writable view, or `contractROState`, which
      wraps a read-only snapshot. */
  datatype Handle = Writable(view: ContractView) | ReadOnly(snap: Snapshot)

  /** `newContractROState()`. */
  function NewContractROState(s: Option<Snapshot>): (r: Option<Handle>)
    ensures s.None? <==> r.None?
    ensures s.Some? ==> r == Some(ReadOnly(s.value))
  {
    match s
    case None => None
    case Some(snap) => Some(ReadOnly(snap))
  }

  /** `SetCode()` through a handle: the read-only wrapper is fatal and
      changes nothing. */
  function SetCodeVia(h: Handle, code: Bytes, hash: Hasher): (r: (Handle, nat, Result<Unit>))
    ensures h.ReadOnly? ==> r.0 == h && r.1 == 0 && r.2.Err? && r.2.error.Fatal?
    ensures h.Writable? ==>
      && r.2 == Ok(Unit) && r.0.Writable?
      && SetCodeOutcome(r.0.view, r.1) == SetCode(h.view, code, hash)
  {
    match h
    case ReadOnly(_) => (h, 0, Err(Fatal("contractROState().SetCode() is invoked")))
    case Writable(v) =>
      var o := SetCode(v, code, hash);
      (Writable(o.view), o.dirtied, Ok(Unit))
  }

  /** Content addressing: new code written through a view and flushed can be
      read back through its hash by a record that has nothing resident. */
  lemma ContentAddressRoundTrip(c: ContractView, code: Bytes, hash: Hasher, st: Store)
    requires |code| > 0 && Digest(hash, code) != c.snap.codeHash
    ensures var s1 := SetCode(c, code, hash).view.snap;
      var (s2, st2) := Flush(s1, st);
      Code(Persisted(s2), st2).result == Ok(code)
  {
    var s1 := SetCode(c, code, hash).view.snap;
    assert s1.isNew && s1.codeHash == Digest(hash, code) && |s1.codeHash| == HashLen;
  }

  /** Clearing after an unflushed replacement leaves `isNew` set, so the
      next flush writes the empty value under the empty key. */
  lemma ClearAfterReplaceFlushesEmptyKey(c: ContractView, code: Bytes, hash: Hasher, st: Store)
    requires |code| > 0 && Digest(hash, code) != c.snap.codeHash
    ensures var s1 := SetCode(c, code, hash).view;
      var s2 := SetCode(s1, [], hash).view.snap;
      s2.isNew && Get(GetBucket(Flush(s2, st).1, BytesByHash), []) == Some([])
  {
  }
}

=== FILE: database.dfy ===
/** The key/value store the contract snapshot reads and writes.

    The backend implementation is not part of this model; what is modelled is
    the behaviour that `common/db/database_test.go` pins down for every
    persistent backend: a database is a family of independent named buckets,
    each an exact-key map from byte strings to byte strings, in which a key
    set to the empty value is present, a deleted key is absent, and closing
    and reopening reproduces every stored value.
 */
module Database {
  import opened Base

  /** A bucket name. The three system buckets carry the logical names under
      which the storage contract describes them. */
  datatype BucketID = BucketID(name: string)

  const MerkleTrie := BucketID("merkle-trie")
  const BytesByHash := BucketID("bytes-by-hash")
  const TransactionLocatorByHash := BucketID("transaction-locator-by-hash")

  type Bucket = map<Bytes, Bytes>

  /** An open database: every bucket that has ever been written. */
  datatype Store = Store(buckets: map<BucketID, Bucket>)

  /** What survives `Close`: the durable image of a persistent backend. */
  datatype Image = Image(saved: map<BucketID, Bucket>)

  const EmptyStore := Store(map[])

  /** `GetBucket`: a bucket nobody wrote to is empty. */
  function GetBucket(st: Store, id: BucketID): (b: Bucket)
    ensures id !in st.buckets ==> b == map[]
    ensures id in st.buckets ==> b == st.buckets[id]
  {
    if id in st.buckets then st.buckets[id] else map[]
  }

  /** `Bucket.Get`: `None` is Go's nil result for an absent key (no error);
      a key set to the empty value yields `Some([])`. */
  function Get(b: Bucket, k: Bytes): (r: Option<Bytes>)
    ensures r.None? <==> k !in b
    ensures r.Some? ==> r.value == b[k]
  {
    if k in b then Some(b[k]) else None
  }

  /** `Bucket.Has`: a key is there exactly when `Get` finds a value, even
      an empty one. */
  function Has(b: Bucket, k: Bytes): (r: bool)
    ensures r <==> Get(b, k).Some?
  {
    k in b
  }

  /** `Bucket.Set`: the key now holds the value; every other key keeps its own. */
  function Set(b: Bucket, k: Bytes, v: Bytes): (r: Bucket)
    ensures r.Keys == b.Keys + {k}
    ensures r[k] == v
    ensures forall k' :: k' in b && k' != k ==> r[k'] == b[k']
  {
    b[k := v]
  }

  /** `Bucket.Delete`: the key is gone (deleting an absent key is no error);
      every other key keeps its value. */
  function Delete(b: Bucket, k: Bytes): (r: Bucket)
    ensures r.Keys == b.Keys - {k}
    ensures forall k' :: k' in r ==> r[k'] == b[k']
  {
    b - {k}
  }

  /** Write one key of one bucket of the database. */
  function StoreSet(st: Store, id: BucketID, k: Bytes, v: Bytes): (r: Store)
    ensures GetBucket(r, id) == Set(GetBucket(st, id), k, v)
    ensures forall other :: other != id ==> GetBucket(r, other) == GetBucket(st, other)
  {
    Store(st.buckets[id := Set(GetBucket(st, id), k, v)])
  }

  function StoreDelete(st: Store, id: BucketID, k: Bytes): (r: Store)
    ensures GetBucket(r, id) == Delete(GetBucket(st, id), k)
    ensures forall other :: other != id ==> GetBucket(r, other) == GetBucket(st, other)
  {
    Store(st.buckets[id := Delete(GetBucket(st, id), k)])
  }

  /** `Close`: the durable image keeps every bucket, and opening it again
      gives back the same store. */
  function Close(st: Store): (img: Image)
    ensures Open(img) == st
  {
    Image(st.buckets)
  }

  /** `openDatabase` on an existing image: the saved buckets, and an empty
      bucket for every name never written. */
  function Open(img: Image): (st: Store)
    ensures forall id :: id in img.saved ==> GetBucket(st, id) == img.saved[id]
    ensures forall id :: id !in img.saved ==> GetBucket(st, id) == map[]
  {
    Store(img.saved)
  }

  /** Reads after `Set` see the written value; nothing else in the bucket moves. */
  lemma SetThenGet(b: Bucket, k: Bytes, v: Bytes, k': Bytes)
    ensures Get(Set(b, k, v), k) == Some(v)
    ensures Has(Set(b, k, v), k)
    ensures k' != k ==> Get(Set(b, k, v), k') == Get(b, k')
  {
  }

  /** After `Delete`, `Get` reports absence (nil, no error) and `Has` is false. */
  lemma DeleteThenGet(b: Bucket, k: Bytes, k': Bytes)
    ensures Get(Delete(b, k), k) == None
    ensures !Has(Delete(b, k), k)
    ensures k' != k ==> Get(Delete(b, k), k') == Get(b, k')
  {
  }

  /** A key set to the empty value is present and distinct from an absent key. */
  lemma EmptyValueIsPresent(b: Bucket, k: Bytes)
    ensures Has(Set(b, k, []), k)
    ensures Get(Set(b, k, []), k) == Some([])
    ensures Get(Set(b, k, []), k) != Get(Delete(b, k), k)
  {
  }

  /** Closing and reopening reproduces every bucket and every key. */
  lemma ReopenPreserves(st: Store, id: BucketID, k: Bytes)
    ensures Get(GetBucket(Open(Close(st)), id), k) == Get(GetBucket(st, id), k)
  {
  }

  const Hello: Bytes := [104, 101, 108, 108, 111]
  const Hell: Bytes := [104, 101, 108, 108]
  const World: Bytes := [119, 111, 114, 108, 100]

  /** The observations of `testDatabase_GetSetDelete`, one output per assert. */
  method GetSetDeleteScenario(st: Store)
    returns (hasBefore: bool, got: Option<Bytes>, hasAfterSet: bool,
             gotAfterDelete: Option<Bytes>, hasAfterDelete: bool, hasEmpty: bool)
    requires BucketID("hello") !in st.buckets
    ensures !hasBefore
    ensures got == Some(World)
    ensures hasAfterSet
    ensures gotAfterDelete == None
    ensures !hasAfterDelete
    ensures hasEmpty
  {
    var id := BucketID("hello");
    var s := st;
    hasBefore := Has(GetBucket(s, id), Hello);
    s := StoreSet(s, id, Hello, World);
    got := Get(GetBucket(s, id), Hello);
    hasAfterSet := Has(GetBucket(s, id), Hello);
    s := StoreDelete(s, id, Hello);
    gotAfterDelete := Get(GetBucket(s, id), Hello);
    hasAfterDelete := Has(GetBucket(s, id), Hello);
    s := StoreSet(s, id, Hell, []);
    hasEmpty := Has(GetBucket(s, id), Hell);
  }

  /** The observations of `testDatabase_SetReopenGet`: the same key set in
      three buckets survives a close/reopen in each of them, and the shorter
      key "hell" stays absent because lookup is by exact key. */
  method SetReopenGetScenario(st: Store, ids: seq<BucketID>)
    returns (stored: seq<Option<Bytes>>, prefix: seq<Option<Bytes>>, prefixHas: seq<bool>)
    requires forall i :: 0 <= i < |ids| ==> ids[i] !in st.buckets
    ensures |stored| == |ids| && |prefix| == |ids| && |prefixHas| == |ids|
    ensures forall i :: 0 <= i < |ids| ==> stored[i] == Some(World)
    ensures forall i :: 0 <= i < |ids| ==> prefix[i] == None && !prefixHas[i]
  {
    var s := st;
    var n := 0;
    while n < |ids|
      invariant 0 <= n <= |ids|
      invariant forall i :: 0 <= i < n ==> GetBucket(s, ids[i]) == map[Hello := World]
      invariant forall b :: b !in ids[..n] ==> GetBucket(s, b) == GetBucket(st, b)
    {
      s := StoreSet(s, ids[n], Hello, World);
      n := n + 1;
    }
    s := Open(Close(s));
    stored, prefix, prefixHas := [], [], [];
    n := 0;
    while n < |ids|
      invariant 0 <= n <= |ids|
      invariant |stored| == n && |prefix| == n && |prefixHas| == n
      invariant forall i :: 0 <= i < n ==> stored[i] == Some(World)
      invariant forall i :: 0 <= i < n ==> prefix[i] == None && !prefixHas[i]
    {
      var b := GetBucket(s, ids[n]);
      stored := stored + [Get(b, Hello)];
      prefix := prefix + [Get(b, Hell)];
      prefixHas := prefixHas + [Has(b, Hell)];
      n := n + 1;
    }
  }
}

=== FILE: manager.dfy ===
/** The decision logic of the service manager (`service/manager.go`).

    The manager's own state is a `Manager` record: the two transaction pools,
    the skip-transaction patch slot, the finalize metric events emitted so far
    and the transactions handed to the propagation layer. Everything it
    delegates to (candidate selection, transition finalization internals, the
    transition-result cache, JSON parsing, transaction admission, the patch
    transaction builder, the state variable decoders) is an uninterpreted
    function of the `Env` record, so every property below holds whatever those
    collaborators do.
 */
module ServiceManager {
  import opened Base
  import opened TxPool

  datatype BlockInfo = BlockInfo(height: int, timestamp: int)

  /** Execution steps of a transition; only `Complete` matters here. */
  datatype Step = Created | Executing | Complete | Failed

  /** `NewTransactionListV1FromSlice` and `NewTransactionListFromSlice` lists. */
  datatype ListFormat = FormatV1 | FormatV2

  datatype TxList = TxList(format: ListFormat, txs: seq<Tx>)

  const EmptyList := TxList(FormatV2, [])

  /** Identifies the world snapshot a transition computed. */
  type WorldRef = nat

  datatype Transition = Transition(
    step: Step,
    parent: Option<Transition>,
    patchTxs: TxList,
    normalTxs: TxList,
    bi: BlockInfo,
    world: Option<WorldRef>,
    alreadyValidated: bool)

  /** A `module.Transition` argument: nil, this package's `*transition`, or
      some other implementation. */
  datatype TransitionArg = NoTransition | Own(t: Transition) | OtherTransition

  /** The world context candidate selection validates against. */
  datatype WorldCtx = WorldCtx(world: Option<WorldRef>, bi: BlockInfo)

  datatype SkipPatch = SkipPatch(height: int)

  /** A `module.Patch` argument: a skip-transaction patch, a value whose type
      says skip-transaction but which does not implement that interface, or
      a patch of any other type. */
  datatype Patch = SkipTx(p: SkipPatch) | MistypedSkipTx | OtherPatch

  datatype TxGroup = PatchGroup | NormalGroup

  datatype MetricEvent = OnFinalize(group: TxGroup, list: TxList)

  datatype Manager = Manager(
    normalPool: Pool,
    patchPool: Pool,
    skipTxPatch: Option<SkipPatch>,
    metrics: seq<MetricEvent>,
    propagated: seq<Tx>)

  datatype Address = Address(isContract: bool, id: Bytes)

  /** System variables read by the point queries. */
  datatype SysVar = TotalSupply | NetworkID | RoundLimitFactor | MinimizeBlockGen

  datatype Account = Account(balance: int, vars: map<SysVar, Bytes>, apiInfo: Option<Bytes>)

  datatype WorldSnapshot = WorldSnapshot(accounts: map<Bytes, Account>)

  /** Transaction input to `SendTransaction`: JSON bytes, a JSON string
      (carried as its bytes), an already typed transaction, or anything else. */
  datatype TxInput = JsonBytes(b: Bytes) | JsonString(s: Bytes) | Typed(tx: Tx) | Untyped

  datatype Env = Env(
    maxTxCount: int,
    maxBlockTxBytes: int,
    nid: int,
    threshold: int,
    systemID: Bytes,
    candidate: (Pool, WorldCtx, int, int) -> (seq<Tx>, int),
    worldState: Option<WorldRef> -> bool,
    finalizeNormal: Transition -> Option<Error>,
    finalizePatch: Transition -> Option<Error>,
    finalizeResult: Transition -> Option<Error>,
    worldSnapshot: Bytes -> Result<WorldSnapshot>,
    patchTx: (SkipPatch, int, int) -> Option<Tx>,
    parseJSON: Bytes -> Result<Tx>,
    parseBytes: Bytes -> Result<Tx>,
    admit: (Pool, Pool, Tx) -> Result<(Pool, Pool)>,
    propagate: Tx -> Option<Error>,
    bigIntOf: Bytes -> int,
    int64Of: Bytes -> int,
    boolOf: Bytes -> bool,
    roundLimit: (int, int) -> int,
    members: Option<Account> -> seq<Bytes>)

  // ---------------------------------------------------------------------
  // Transitions

  function NewTransition(parent: Option<Transition>, patchTxs: TxList, normalTxs: TxList,
                         bi: BlockInfo, alreadyValidated: bool): Transition
  {
    Transition(Created, parent, patchTxs, normalTxs, bi, None, alreadyValidated)
  }

  /** `checkTransitionResult`: nil passes as nil; anything but a complete
      `*transition` is an illegal argument. */
  function CheckTransitionResult(arg: TransitionArg): (r: Result<Option<Transition>>)
    ensures arg.NoTransition? ==> r == Ok(None)
    ensures r.Ok? && r.value.Some? <==> arg.Own? && arg.t.step == Complete
    ensures r.Ok? && r.value.Some? ==> r.value.value == arg.t
    ensures r.Err? <==> arg.OtherTransition? || (arg.Own? && arg.t.step != Complete)
    ensures r.Err? ==> r.error == IllegalArgument
  {
    match arg
    case NoTransition => Ok(None)
    case OtherTransition => Err(IllegalArgument)
    case Own(t) => if t.step != Complete then Err(IllegalArgument) else Ok(Some(t))
  }

  /** `ProposeTransition`: a guarded parent, normal candidates packed within
      the block budget, and an empty patch list. A nil parent passes the
      guard and is then dereferenced, which is fatal. */
  function ProposeTransition(m: Manager, env: Env, parent: TransitionArg, bi: BlockInfo): (r: Result<Transition>)
    ensures CheckTransitionResult(parent).Err? ==> r == Err(IllegalArgument)
    ensures parent.NoTransition? ==> r.Err? && r.error.Fatal?
    ensures parent.Own? && parent.t.step == Complete ==>
      var (cands, _) := env.candidate(m.normalPool, WorldCtx(parent.t.world, bi), env.maxBlockTxBytes, env.maxTxCount);
      && r.Ok?
      && r.value.parent == Some(parent.t)
      && r.value.normalTxs == TxList(FormatV2, cands)
      && r.value.patchTxs == EmptyList
      && r.value.bi == bi
      && r.value.step == Created
      && r.value.alreadyValidated
  {
    match CheckTransitionResult(parent)
    case Err(e) => Err(e)
    case Ok(None) => Err(Fatal("nil parent dereferenced"))
    case Ok(Some(pt)) =>
      var (normalTxs, _) := env.candidate(m.normalPool, WorldCtx(pt.world, bi), env.maxBlockTxBytes, env.maxTxCount);
      Ok(NewTransition(Some(pt), EmptyList, TxList(FormatV2, normalTxs), bi, true))
  }

  /** `CreateTransition`: the same guard, then the given list, unvalidated.
      A nil parent is allowed and yields a parentless transition. */
  function CreateTransition(parent: TransitionArg, txList: TxList, bi: BlockInfo): (r: Result<Transition>)
    ensures CheckTransitionResult(parent).Err? ==> r == Err(IllegalArgument)
    ensures CheckTransitionResult(parent).Ok? ==>
      && r.Ok?
      && r.value.parent == CheckTransitionResult(parent).value
      && r.value.normalTxs == txList
      && r.value.patchTxs == EmptyList
      && r.value.bi == bi
      && r.value.step == Created
      && !r.value.alreadyValidated
  {
    match CheckTransitionResult(parent)
    case Err(e) => Err(e)
    case Ok(pt) => Ok(NewTransition(pt, EmptyList, txList, bi, false))
  }

  /** The parent guard: a parent that is not a complete transition of this
      package never yields a transition, from either constructor. */
  lemma ParentGuard(m: Manager, env: Env, parent: TransitionArg, txList: TxList, bi: BlockInfo)
    requires parent.OtherTransition? || (parent.Own? && parent.t.step != Complete)
    ensures ProposeTransition(m, env, parent, bi) == Err(IllegalArgument)
    ensures CreateTransition(parent, txList, bi) == Err(IllegalArgument)
  {
  }

  // ---------------------------------------------------------------------
  // Patches

  /** `SendPatch`: only a well-typed skip-transaction patch with a height of
      at least 1 is stored; every rejection leaves the slot as it was. */
  function SendPatch(m: Manager, data: Patch): (r: (Manager, Result<Unit>))
    ensures r.1.Ok? <==> data.SkipTx? && data.p.height >= 1
    ensures r.1.Ok? ==> r.0 == m.(skipTxPatch := Some(data.p))
    ensures r.1.Err? ==> r.0 == m && r.1.error.InvalidPatchData?
  {
    match data
    case SkipTx(p) =>
      if p.height < 1 then (m, Err(InvalidPatchData("InvalidHeightValue(height=" + IntText(p.height) + ")")))
      else (m.(skipTxPatch := Some(p)), Ok(Unit))
    case MistypedSkipTx => (m, Err(InvalidPatchData("Invalid Skip Transaction Patch Data")))
    case OtherPatch => (m, Err(InvalidPatchData("UnknownPatch")))
  }

  /** The patch list of a block and the byte size the source accumulates
      for it (the source computes the size but does not return it). */
  datatype PatchSet = PatchSet(list: TxList, size: int)

  /** Whether the stored skip patch applies to a block of this height: only
      the block right after the patch height, so never before height 2 for a
      patch `SendPatch` accepted. */
  function PatchDue(slot: Option<SkipPatch>, height: int): (r: bool)
    ensures r ==> slot.Some? && height - 1 == slot.value.height
    ensures slot.Some? && slot.value.height >= 1 && height < 2 ==> !r
    ensures slot.Some? && height == slot.value.height + 1 ==> r
  {
    slot.Some? && slot.value.height + 1 == height
  }

  /** `GetPatches`: patch-pool candidates without a count limit, followed by
      a transaction built from the stored skip patch exactly when the block
      is the one right after the patch height. A parent whose world state
      cannot be rebuilt is fatal. */
  function GetPatches(m: Manager, env: Env, parent: TransitionArg, bi: BlockInfo): (r: Result<PatchSet>)
    ensures !parent.Own? ==> r.Err? && r.error.Fatal?
    ensures parent.Own? && !env.worldState(parent.t.world) ==> r.Err? && r.error.Fatal?
    ensures parent.Own? && env.worldState(parent.t.world) ==>
      var (cands, size) := env.candidate(m.patchPool, WorldCtx(parent.t.world, bi), env.maxBlockTxBytes, 0);
      if !PatchDue(m.skipTxPatch, bi.height) then r == Ok(PatchSet(TxList(FormatV2, cands), size))
      else
        var built := env.patchTx(m.skipTxPatch.value, env.nid, bi.timestamp);
        if built.None? then r.Err? && r.error.Fatal?
        else r == Ok(PatchSet(TxList(FormatV2, cands + [built.value]), size + |built.value.raw|))
  {
    match parent
    case Own(pt) =>
      if !env.worldState(pt.world) then Err(Fatal("Fail to creating world state from snapshot"))
      else
        var (txs, size) := env.candidate(m.patchPool, WorldCtx(pt.world, bi), env.maxBlockTxBytes, 0);
        if PatchDue(m.skipTxPatch, bi.height) then
          match env.patchTx(m.skipTxPatch.value, env.nid, bi.timestamp)
          case None => Err(Fatal("Fail to make transaction from patch"))
          case Some(tx) => Ok(PatchSet(TxList(FormatV2, txs + [tx]), size + |tx.raw|))
        else Ok(PatchSet(TxList(FormatV2, txs), size))
    case _ => Err(Fatal("Illegal transition for GetPatches"))
  }

  /** A stored patch of height h contributes to block h + 1 and to no other. */
  lemma PatchAppliesOnlyToNextBlock(m: Manager, env: Env, pt: Transition, bi: BlockInfo, p: SkipPatch)
    requires m.skipTxPatch == Some(p)
    requires env.worldState(pt.world)
    requires bi.height == p.height + 1 ==> env.patchTx(p, env.nid, bi.timestamp).Some?
    ensures var r := GetPatches(m, env, Own(pt), bi);
      var (cands, size) := env.candidate(m.patchPool, WorldCtx(pt.world, bi), env.maxBlockTxBytes, 0);
      && r.Ok?
      && (|r.value.list.txs| == |cands| + 1 <==> bi.height == p.height + 1)
      && (bi.height != p.height + 1 ==> r.value == PatchSet(TxList(FormatV2, cands), size))
  {
  }

  /** `SendPatch` feeds `GetPatches`: once a patch of height h is accepted,
      the patch list of block h + 1 ends with the transaction built from it,
      after the patch pool's own candidates. */
  lemma SendPatchThenGetPatches(m: Manager, env: Env, pt: Transition, bi: BlockInfo, p: SkipPatch)
    requires p.height >= 1 && bi.height == p.height + 1
    requires env.worldState(pt.world)
    requires env.patchTx(p, env.nid, bi.timestamp).Some?
    ensures var (m1, sent) := SendPatch(m, SkipTx(p));
      var r := GetPatches(m1, env, Own(pt), bi);
      var (cands, _) := env.candidate(m.patchPool, WorldCtx(pt.world, bi), env.maxBlockTxBytes, 0);
      && sent.Ok?
      && r.Ok?
      && r.value.list.txs == cands + [env.patchTx(p, env.nid, bi.timestamp).value]
  {
    var m1 := SendPatch(m, SkipTx(p)).0;
    assert m1.skipTxPatch == Some(p) && m1.patchPool == m.patchPool;
    assert PatchDue(m1.skipTxPatch, bi.height);
  }

  // ---------------------------------------------------------------------
  // Finalize

  const FinalizeNormalTransaction: bv64 := 1
  const FinalizePatchTransaction: bv64 := 2
  const FinalizeResult: bv64 := 4

  /** Whether every bit of `bit` is set in `opt`. */
  predicate Selected(opt: bv64, bit: bv64)
  {
    opt & bit == bit
  }

  /** The three finalize options are independent bits: each selects itself
      and neither of the others, and their union selects all three. */
  lemma FinalizeBitsIndependent()
    ensures Selected(FinalizeNormalTransaction, FinalizeNormalTransaction)
    ensures Selected(FinalizePatchTransaction, FinalizePatchTransaction)
    ensures Selected(FinalizeResult, FinalizeResult)
    ensures !Selected(FinalizeNormalTransaction, FinalizePatchTransaction) && !Selected(FinalizeNormalTransaction, FinalizeResult)
    ensures !Selected(FinalizePatchTransaction, FinalizeNormalTransaction) && !Selected(FinalizePatchTransaction, FinalizeResult)
    ensures !Selected(FinalizeResult, FinalizeNormalTransaction) && !Selected(FinalizeResult, FinalizePatchTransaction)
    ensures var all := FinalizeNormalTransaction | FinalizePatchTransaction | FinalizeResult;
      Selected(all, FinalizeNormalTransaction) && Selected(all, FinalizePatchTransaction) && Selected(all, FinalizeResult)
  {
  }

  /** One finalize step: the state after it and the error that stops the call. */
  datatype StepOutcome = StepOutcome(m: Manager, err: Option<Error>)

  function FinalizeNormalStep(m: Manager, env: Env, t: Transition): (r: StepOutcome)
    ensures env.finalizeNormal(t).Some? ==> r == StepOutcome(m, env.finalizeNormal(t))
    ensures env.finalizeNormal(t).None? ==>
      r == StepOutcome(m.(normalPool := Prune(m.normalPool, t.normalTxs.txs, t.bi.timestamp - env.threshold)), None)
  {
    match env.finalizeNormal(t)
    case Some(e) => StepOutcome(m, Some(e))
    case None => StepOutcome(m.(normalPool := Prune(m.normalPool, t.normalTxs.txs, t.bi.timestamp - env.threshold)), None)
  }

  function FinalizePatchStep(m: Manager, env: Env, t: Transition): (r: StepOutcome)
    ensures env.finalizePatch(t).Some? ==> r == StepOutcome(m, env.finalizePatch(t))
    ensures env.finalizePatch(t).None? ==>
      r == StepOutcome(m.(patchPool := Prune(m.patchPool, t.patchTxs.txs, t.bi.timestamp - env.threshold)), None)
  {
    match env.finalizePatch(t)
    case Some(e) => StepOutcome(m, Some(e))
    case None => StepOutcome(m.(patchPool := Prune(m.patchPool, t.patchTxs.txs, t.bi.timestamp - env.threshold)), None)
  }

  function FinalizeResultStep(m: Manager, env: Env, t: Transition): (r: StepOutcome)
    ensures env.finalizeResult(t).Some? ==> r == StepOutcome(m, env.finalizeResult(t))
    ensures env.finalizeResult(t).None? ==>
      r == StepOutcome(m.(metrics := m.metrics + [OnFinalize(PatchGroup, t.patchTxs), OnFinalize(NormalGroup, t.normalTxs)]), None)
  {
    match env.finalizeResult(t)
    case Some(e) => StepOutcome(m, Some(e))
    case None => StepOutcome(m.(metrics := m.metrics + [OnFinalize(PatchGroup, t.patchTxs), OnFinalize(NormalGroup, t.normalTxs)]), None)
  }

  /** Run a step when its bit is selected and no earlier step failed. */
  function Then(prev: StepOutcome, run: bool, step: Manager -> StepOutcome): (r: StepOutcome)
    ensures prev.err.Some? ==> r == prev
    ensures !run ==> r == prev
    ensures r.err.None? ==> prev.err.None?
    ensures run && prev.err.None? ==> r == step(prev.m)
  {
    if prev.err.Some? || !run then prev else step(prev.m)
  }

  /** `Finalize`: the normal, patch and result bits are tested in that order;
      the first failing step returns its error at once. Anything but this
      package's transition is fatal. */
  function Finalize(m: Manager, env: Env, arg: TransitionArg, opt: bv64): (r: (Manager, Result<Unit>))
    ensures !arg.Own? ==> r.0 == m && r.1.Err? && r.1.error.Fatal?
    ensures r.0.skipTxPatch == m.skipTxPatch && r.0.propagated == m.propagated
  {
    match arg
    case Own(t) =>
      var s0 := StepOutcome(m, None);
      var s1 := Then(s0, Selected(opt, FinalizeNormalTransaction), (x: Manager) => FinalizeNormalStep(x, env, t));
      var s2 := Then(s1, Selected(opt, FinalizePatchTransaction), (x: Manager) => FinalizePatchStep(x, env, t));
      var s3 := Then(s2, Selected(opt, FinalizeResult), (x: Manager) => FinalizeResultStep(x, env, t));
      (s3.m, if s3.err.Some? then Err(s3.err.value) else Ok(Unit))
    case _ => (m, Err(Fatal("FAIL type assertion. Not transition pointer type")))
  }

  /** Finalizing normal transactions alone touches only the normal pool. */
  lemma FinalizeNormalOnly(m: Manager, env: Env, t: Transition)
    requires env.finalizeNormal(t).None?
    ensures Finalize(m, env, Own(t), FinalizeNormalTransaction)
      == (m.(normalPool := Prune(m.normalPool, t.normalTxs.txs, t.bi.timestamp - env.threshold)), Ok(Unit))
  {
  }

  /** Finalizing patch transactions alone touches only the patch pool. */
  lemma FinalizePatchOnly(m: Manager, env: Env, t: Transition)
    requires env.finalizePatch(t).None?
    ensures Finalize(m, env, Own(t), FinalizePatchTransaction)
      == (m.(patchPool := Prune(m.patchPool, t.patchTxs.txs, t.bi.timestamp - env.threshold)), Ok(Unit))
  {
  }

  /** A failing normal step stops the call before anything changes: no pool
      is pruned and no metric is emitted, whatever else was selected. */
  lemma FinalizeStopsAtNormalError(m: Manager, env: Env, t: Transition, opt: bv64)
    requires Selected(opt, FinalizeNormalTransaction)
    requires env.finalizeNormal(t).Some?
    ensures Finalize(m, env, Own(t), opt) == (m, Err(env.finalizeNormal(t).value))
  {
  }

  /** A failing patch step keeps the normal step's effect and stops before
      the result step. */
  lemma FinalizeStopsAtPatchError(m: Manager, env: Env, t: Transition, opt: bv64)
    requires Selected(opt, FinalizePatchTransaction)
    requires env.finalizePatch(t).Some?
    requires Selected(opt, FinalizeNormalTransaction) ==> env.finalizeNormal(t).None?
    ensures var r := Finalize(m, env, Own(t), opt);
      && r.1 == Err(env.finalizePatch(t).value)
      && r.0.patchPool == m.patchPool
      && r.0.metrics == m.metrics
      && r.0.normalPool == (if Selected(opt, FinalizeNormalTransaction)
                            then Prune(m.normalPool, t.normalTxs.txs, t.bi.timestamp - env.threshold)
                            else m.normalPool)
  {
  }

  /** The three bits act independently and in order: finalizing with all of
      them is finalizing the normal part, then the patch and result parts. */
  lemma FinalizeComposes(m: Manager, env: Env, t: Transition)
    requires env.finalizeNormal(t).None?
    ensures var all := FinalizeNormalTransaction | FinalizePatchTransaction | FinalizeResult;
      var rest := FinalizePatchTransaction | FinalizeResult;
      Finalize(m, env, Own(t), all) == Finalize(Finalize(m, env, Own(t), FinalizeNormalTransaction).0, env, Own(t), rest)
  {
    var all := FinalizeNormalTransaction | FinalizePatchTransaction | FinalizeResult;
    var rest := FinalizePatchTransaction | FinalizeResult;
    assert all == 7 && rest == 6;
    assert Selected(all, FinalizeNormalTransaction) && Selected(all, FinalizePatchTransaction) && Selected(all, FinalizeResult);
    assert !Selected(rest, FinalizeNormalTransaction) && Selected(rest, FinalizePatchTransaction) && Selected(rest, FinalizeResult);
    assert !Selected(FinalizeNormalTransaction, FinalizePatchTransaction) && !Selected(FinalizeNormalTransaction, FinalizeResult);
  }

  /** What a successful `Finalize` leaves in the pools: each selected pool
      pruned once by the transition's list and cut-off, the other as it was. */
  lemma FinalizeOkPools(m: Manager, env: Env, t: Transition, opt: bv64)
    requires Finalize(m, env, Own(t), opt).1.Ok?
    ensures var m1 := Finalize(m, env, Own(t), opt).0;
      var cutoff := t.bi.timestamp - env.threshold;
      && m1.normalPool == (if Selected(opt, FinalizeNormalTransaction) then Prune(m.normalPool, t.normalTxs.txs, cutoff) else m.normalPool)
      && m1.patchPool == (if Selected(opt, FinalizePatchTransaction) then Prune(m.patchPool, t.patchTxs.txs, cutoff) else m.patchPool)
  {
    var s1 := Then(StepOutcome(m, None), Selected(opt, FinalizeNormalTransaction), (x: Manager) => FinalizeNormalStep(x, env, t));
    var s2 := Then(s1, Selected(opt, FinalizePatchTransaction), (x: Manager) => FinalizePatchStep(x, env, t));
    var s3 := Then(s2, Selected(opt, FinalizeResult), (x: Manager) => FinalizeResultStep(x, env, t));
    assert s3.err.None? && s2.err.None? && s1.err.None?;
    assert s3.m.normalPool == s2.m.normalPool == s1.m.normalPool && s3.m.patchPool == s2.m.patchPool;
    assert s2.m.normalPool == s1.m.normalPool;
  }

  /** `Finalize` leaves alone every selected pool that its own pruning step
      would not change, whatever its outcome; an unselected pool is never
      touched. */
  lemma FinalizeKeepsStablePools(m: Manager, env: Env, t: Transition, opt: bv64)
    requires var cutoff := t.bi.timestamp - env.threshold;
      && (Selected(opt, FinalizeNormalTransaction) ==> Prune(m.normalPool, t.normalTxs.txs, cutoff) == m.normalPool)
      && (Selected(opt, FinalizePatchTransaction) ==> Prune(m.patchPool, t.patchTxs.txs, cutoff) == m.patchPool)
    ensures var m1 := Finalize(m, env, Own(t), opt).0;
      m1.normalPool == m.normalPool && m1.patchPool == m.patchPool
  {
    var s1 := Then(StepOutcome(m, None), Selected(opt, FinalizeNormalTransaction), (x: Manager) => FinalizeNormalStep(x, env, t));
    var s2 := Then(s1, Selected(opt, FinalizePatchTransaction), (x: Manager) => FinalizePatchStep(x, env, t));
    var s3 := Then(s2, Selected(opt, FinalizeResult), (x: Manager) => FinalizeResultStep(x, env, t));
    assert s1.m.normalPool == m.normalPool && s1.m.patchPool == m.patchPool;
    assert s2.m.normalPool == m.normalPool && s2.m.patchPool == m.patchPool;
  }

  /** Finalizing the same transition again with the same bits removes
      nothing more from either pool, whatever the second call's collaborators
      answer, as long as the cut-off threshold is the same. */
  lemma FinalizeTwiceKeepsPools(m: Manager, env: Env, env2: Env, t: Transition, opt: bv64)
    requires Finalize(m, env, Own(t), opt).1.Ok?
    requires env2.threshold == env.threshold
    ensures var m1 := Finalize(m, env, Own(t), opt).0;
      var m2 := Finalize(m1, env2, Own(t), opt).0;
      m2.normalPool == m1.normalPool && m2.patchPool == m1.patchPool
  {
    var cutoff := t.bi.timestamp - env.threshold;
    var m1 := Finalize(m, env, Own(t), opt).0;
    FinalizeOkPools(m, env, t, opt);
    PrunedPoolsAreStable(m, m1, t, opt, cutoff);
    FinalizeKeepsStablePools(m1, env2, t, opt);
  }

  /** Pools each pruned at most once by a transition are left as they are by
      a further pruning with the same list and cut-off. */
  lemma PrunedPoolsAreStable(m: Manager, m1: Manager, t: Transition, opt: bv64, cutoff: int)
    requires m1.normalPool == (if Selected(opt, FinalizeNormalTransaction) then Prune(m.normalPool, t.normalTxs.txs, cutoff) else m.normalPool)
    requires m1.patchPool == (if Selected(opt, FinalizePatchTransaction) then Prune(m.patchPool, t.patchTxs.txs, cutoff) else m.patchPool)
    ensures Selected(opt, FinalizeNormalTransaction) ==> Prune(m1.normalPool, t.normalTxs.txs, cutoff) == m1.normalPool
    ensures Selected(opt, FinalizePatchTransaction) ==> Prune(m1.patchPool, t.patchTxs.txs, cutoff) == m1.patchPool
  {
    PruneIsIdempotent(m.normalPool, t.normalTxs.txs, cutoff);
    PruneIsIdempotent(m.patchPool, t.patchTxs.txs, cutoff);
  }

  /** The result bit alone emits one patch and one normal metric event and
      touches neither pool. */
  lemma FinalizeResultOnly(m: Manager, env: Env, t: Transition)
    requires env.finalizeResult(t).None?
    ensures Finalize(m, env, Own(t), FinalizeResult)
      == (m.(metrics := m.metrics + [OnFinalize(PatchGroup, t.patchTxs), OnFinalize(NormalGroup, t.normalTxs)]), Ok(Unit))
  {
  }

  /** A failing result step returns its error after the selected pools were
      pruned, and emits no metric event. */
  lemma FinalizeStopsAtResultError(m: Manager, env: Env, t: Transition, opt: bv64)
    requires Selected(opt, FinalizeResult)
    requires env.finalizeResult(t).Some?
    requires Selected(opt, FinalizeNormalTransaction) ==> env.finalizeNormal(t).None?
    requires Selected(opt, FinalizePatchTransaction) ==> env.finalizePatch(t).None?
    ensures var r := Finalize(m, env, Own(t), opt);
      var cutoff := t.bi.timestamp - env.threshold;
      && r.1 == Err(env.finalizeResult(t).value)
      && r.0.metrics == m.metrics
      && r.0.normalPool == (if Selected(opt, FinalizeNormalTransaction) then Prune(m.normalPool, t.normalTxs.txs, cutoff) else m.normalPool)
      && r.0.patchPool == (if Selected(opt, FinalizePatchTransaction) then Prune(m.patchPool, t.patchTxs.txs, cutoff) else m.patchPool)
  {
  }

  /** After a successful finalize, no transaction of a finalized list is
      pending in its pool any more. */
  lemma FinalizedAreNotPending(m: Manager, env: Env, t: Transition, opt: bv64, tx: Tx)
    requires Finalize(m, env, Own(t), opt).1.Ok?
    ensures var m1 := Finalize(m, env, Own(t), opt).0;
      && (Selected(opt, FinalizeNormalTransaction) && tx in t.normalTxs.txs ==> !HasTx(m1.normalPool, tx.id))
      && (Selected(opt, FinalizePatchTransaction) && tx in t.patchTxs.txs ==> !HasTx(m1.patchPool, tx.id))
  {
    FinalizeOkPools(m, env, t, opt);
    assert tx in t.normalTxs.txs ==> tx.id in IdsOf(t.normalTxs.txs);
    assert tx in t.patchTxs.txs ==> tx.id in IdsOf(t.patchTxs.txs);
  }

  // ---------------------------------------------------------------------
  // Transaction lists and membership

  const BlockVersion1 := 1
  const BlockVersion2 := 2

  /** `TransactionListFromSlice`: a list for block versions 1 and 2, nil otherwise. */
  function TransactionListFromSlice(txs: seq<Tx>, version: int): (r: Option<TxList>)
    ensures r.Some? <==> version == BlockVersion1 || version == BlockVersion2
    ensures r.Some? ==> r.value.txs == txs
    ensures r.Some? ==> (r.value.format == FormatV1 <==> version == BlockVersion1)
  {
    if version == BlockVersion1 then Some(TxList(FormatV1, txs))
    else if version == BlockVersion2 then Some(TxList(FormatV2, txs))
    else None
  }

  /** `HasTransaction`: in the normal pool or the patch pool. */
  function HasTransaction(m: Manager, id: Bytes): (r: bool)
    ensures r <==>
      || (exists i :: 0 <= i < |m.normalPool.txs| && m.normalPool.txs[i].id == id)
      || (exists i :: 0 <= i < |m.patchPool.txs| && m.patchPool.txs[i].id == id)
  {
    HasTx(m.normalPool, id) || HasTx(m.patchPool, id)
  }

  /** `TransactionFromBytes`: a parse failure is only logged, so the call
      never reports an error; it returns the parsed transaction or nil. */
  function TransactionFromBytes(env: Env, b: Bytes): (r: Result<Option<Tx>>)
    ensures r.Ok?
    ensures env.parseBytes(b).Ok? ==> r.value == Some(env.parseBytes(b).value)
    ensures env.parseBytes(b).Err? ==> r.value == None
  {
    match env.parseBytes(b)
    case Ok(tx) => Ok(Some(tx))
    case Err(_) => Ok(None)
  }

  // ---------------------------------------------------------------------
  // Sending transactions

  /** Parse the input into a transaction, tagging failures as invalid. */
  function ParseInput(env: Env, txi: TxInput): (r: Result<Tx>)
    ensures txi.Untyped? ==> r == Err(InvalidTransaction(None))
    ensures txi.Typed? ==> r == Ok(txi.tx)
    ensures txi.JsonBytes? || txi.JsonString? ==>
      var raw := if txi.JsonBytes? then txi.b else txi.s;
      if env.parseJSON(raw).Ok? then r == env.parseJSON(raw)
      else r == Err(InvalidTransaction(Some(env.parseJSON(raw).error)))
  {
    match txi
    case JsonBytes(b) =>
      (match env.parseJSON(b)
       case Ok(tx) => Ok(tx)
       case Err(e) => Err(InvalidTransaction(Some(e))))
    case JsonString(s) =>
      (match env.parseJSON(s)
       case Ok(tx) => Ok(tx)
       case Err(e) => Err(InvalidTransaction(Some(e))))
    case Typed(tx) => Ok(tx)
    case Untyped => Err(InvalidTransaction(None))
  }

  /** `SendTransaction`: parse, admit, then hand to propagation whose error
      is never reported; the result is the transaction id. */
  function SendTransaction(m: Manager, env: Env, txi: TxInput): (r: (Manager, Result<Bytes>))
    ensures ParseInput(env, txi).Err? ==> r == (m, Err(ParseInput(env, txi).error))
    ensures ParseInput(env, txi).Ok? ==>
      var tx := ParseInput(env, txi).value;
      var admitted := env.admit(m.normalPool, m.patchPool, tx);
      if admitted.Err? then r == (m, Err(admitted.error))
      else
        && r.1 == Ok(tx.id)
        && r.0 == m.(normalPool := admitted.value.0, patchPool := admitted.value.1, propagated := m.propagated + [tx])
  {
    match ParseInput(env, txi)
    case Err(e) => (m, Err(e))
    case Ok(tx) =>
      match env.admit(m.normalPool, m.patchPool, tx)
      case Err(e) => (m, Err(e))
      case Ok((normal, patch)) =>
        var m1 := m.(normalPool := normal, patchPool := patch, propagated := m.propagated + [tx]);
        // The propagation error is logged and dropped.
        var _ := env.propagate(tx);
        (m1, Ok(tx.id))
  }

  /** Whatever the propagation layer answers, `SendTransaction` answers the same. */
  lemma PropagationNeverSurfaces(m: Manager, env: Env, txi: TxInput, other: Tx -> Option<Error>)
    ensures SendTransaction(m, env.(propagate := other), txi) == SendTransaction(m, env, txi)
  {
  }

  /** JSON given as bytes and the same JSON given as a string are handled alike. */
  lemma BytesAndStringAgree(m: Manager, env: Env, raw: Bytes)
    ensures SendTransaction(m, env, JsonBytes(raw)) == SendTransaction(m, env, JsonString(raw))
  {
  }

  // ---------------------------------------------------------------------
  // Point queries

  function GetAccount(ws: WorldSnapshot, id: Bytes): Option<Account>
  {
    if id in ws.accounts then Some(ws.accounts[id]) else None
  }

  /** A system variable: absent when the system account or the variable is. */
  function SystemVar(env: Env, ws: WorldSnapshot, v: SysVar): (r: Option<Bytes>)
    ensures r.Some? <==> env.systemID in ws.accounts && v in ws.accounts[env.systemID].vars
  {
    match GetAccount(ws, env.systemID)
    case None => None
    case Some(a) => if v in a.vars then Some(a.vars[v]) else None
  }

  /** `GetBalance`: zero for an absent account; cache errors pass through. */
  function GetBalance(env: Env, result: Bytes, addr: Address): (r: Result<int>)
    ensures env.worldSnapshot(result).Err? ==> r == Err(env.worldSnapshot(result).error)
    ensures env.worldSnapshot(result).Ok? ==>
      var ws := env.worldSnapshot(result).value;
      r == Ok(if addr.id in ws.accounts then ws.accounts[addr.id].balance else 0)
  {
    match env.worldSnapshot(result)
    case Err(e) => Err(e)
    case Ok(ws) =>
      match GetAccount(ws, addr.id)
      case None => Ok(0)
      case Some(a) => Ok(a.balance)
  }

  /** `GetTotalSupply`: zero while the variable is unset. */
  function GetTotalSupply(env: Env, result: Bytes): (r: Result<int>)
    ensures env.worldSnapshot(result).Err? ==> r == Err(env.worldSnapshot(result).error)
    ensures env.worldSnapshot(result).Ok? ==>
      var v := SystemVar(env, env.worldSnapshot(result).value, TotalSupply);
      r == Ok(if v.None? then 0 else env.bigIntOf(v.value))
  {
    match env.worldSnapshot(result)
    case Err(e) => Err(e)
    case Ok(ws) =>
      match SystemVar(env, ws, TotalSupply)
      case None => Ok(0)
      case Some(b) => Ok(env.bigIntOf(b))
  }

  /** `GetNetworkID`: not found while the variable is unset. */
  function GetNetworkID(env: Env, result: Bytes): (r: Result<int>)
    ensures env.worldSnapshot(result).Err? ==> r == Err(env.worldSnapshot(result).error)
    ensures env.worldSnapshot(result).Ok? ==>
      var v := SystemVar(env, env.worldSnapshot(result).value, NetworkID);
      (v.None? <==> r.Err?) && (r.Err? ==> r.error.NotFound?) && (v.Some? ==> r == Ok(env.int64Of(v.value)))
  {
    match env.worldSnapshot(result)
    case Err(e) => Err(e)
    case Ok(ws) =>
      match SystemVar(env, ws, NetworkID)
      case None => Err(NotFound("network id"))
      case Some(b) => Ok(env.int64Of(b))
  }

  /** `GetAPIInfo`: a non-contract address is rejected before any lookup;
      a missing account or one without API info is not an active contract. */
  function GetAPIInfo(env: Env, result: Bytes, addr: Address): (r: Result<Bytes>)
    ensures !addr.isContract ==> r == Err(NotContractAddress)
    ensures addr.isContract && env.worldSnapshot(result).Err? ==> r == Err(env.worldSnapshot(result).error)
    ensures addr.isContract && env.worldSnapshot(result).Ok? ==>
      var acct := GetAccount(env.worldSnapshot(result).value, addr.id);
      if acct.Some? && acct.value.apiInfo.Some? then r == Ok(acct.value.apiInfo.value)
      else r.Err? && r.error.NoActiveContract?
  {
    if !addr.isContract then Err(NotContractAddress)
    else
      match env.worldSnapshot(result)
      case Err(e) => Err(e)
      case Ok(ws) =>
        match GetAccount(ws, addr.id)
        case None => Err(NoActiveContract("No account"))
        case Some(a) =>
          match a.apiInfo
          case None => Err(NoActiveContract("Account doesn't have active contract"))
          case Some(info) => Ok(info)
  }

  /** `GetMembers`: the member list of the system account. */
  function GetMembers(env: Env, result: Bytes): (r: Result<seq<Bytes>>)
    ensures env.worldSnapshot(result).Err? ==> r == Err(env.worldSnapshot(result).error)
    ensures env.worldSnapshot(result).Ok? ==>
      r == Ok(env.members(GetAccount(env.worldSnapshot(result).value, env.systemID)))
  {
    match env.worldSnapshot(result)
    case Err(e) => Err(e)
    case Ok(ws) => Ok(env.members(GetAccount(ws, env.systemID)))
  }

  /** `GetRoundLimit`: zero when the lookup fails or the factor is zero. */
  function GetRoundLimit(env: Env, result: Bytes, vl: int): (r: int)
    ensures env.worldSnapshot(result).Err? ==> r == 0
    ensures env.worldSnapshot(result).Ok? ==>
      var v := SystemVar(env, env.worldSnapshot(result).value, RoundLimitFactor);
      var factor := if v.None? then 0 else env.int64Of(v.value);
      r == (if factor == 0 then 0 else env.roundLimit(vl, factor))
  {
    match env.worldSnapshot(result)
    case Err(_) => 0
    case Ok(ws) =>
      var factor := match SystemVar(env, ws, RoundLimitFactor) case None => 0 case Some(b) => env.int64Of(b);
      if factor == 0 then 0 else env.roundLimit(vl, factor)
  }

  /** `GetMinimizeBlockGen`: false when the lookup fails or the variable is unset. */
  function GetMinimizeBlockGen(env: Env, result: Bytes): (r: bool)
    ensures env.worldSnapshot(result).Err? ==> !r
    ensures env.worldSnapshot(result).Ok? ==>
      var v := SystemVar(env, env.worldSnapshot(result).value, MinimizeBlockGen);
      r == (v.Some? && env.boolOf(v.value))
  {
    match env.worldSnapshot(result)
    case Err(_) => false
    case Ok(ws) =>
      match SystemVar(env, ws, MinimizeBlockGen)
      case None => false
      case Some(b) => env.boolOf(b)
  }

  /** Every error-returning query forwards an unknown result hash's error
      unchanged, except `GetAPIInfo` on a non-contract address. */
  lemma QueriesForwardCacheErrors(env: Env, result: Bytes, addr: Address)
    requires env.worldSnapshot(result).Err?
    ensures var e := env.worldSnapshot(result).error;
      && GetBalance(env, result, addr) == Err(e)
      && GetTotalSupply(env, result) == Err(e)
      && GetNetworkID(env, result) == Err(e)
      && GetMembers(env, result) == Err(e)
      && (addr.isContract ==> GetAPIInfo(env, result, addr) == Err(e))
  {
  }
}

=== FILE: txpool.dfy ===
/** The part of a transaction pool the service manager relies on.

    The pool implementation is not part of this model. A pool is its pending
    transactions in arrival order. Removal of a finalized list and eviction
    of stale transactions are taken to behave as follows: `RemoveList` drops
    exactly the listed transactions (absent ones are not an error) and
    `RemoveOldTXs` drops every transaction older than a cut-off.
    Candidate selection, which validates against world state, stays abstract
    and is supplied by the manager's environment.
 */
module TxPool {
  import opened Base

  datatype Tx = Tx(id: Bytes, timestamp: int, raw: Bytes)

  datatype Pool = Pool(txs: seq<Tx>)

  const EmptyPool := Pool([])

  /** `HasTx`: some pending transaction carries the id. */
  function HasTx(p: Pool, id: Bytes): (r: bool)
    ensures r <==> id in IdsOf(p.txs)
  {
    exists i :: 0 <= i < |p.txs| && p.txs[i].id == id
  }

  /** The transactions of `txs` that satisfy `keep`, in their original order. */
  function Filter(txs: seq<Tx>, keep: Tx -> bool): (r: seq<Tx>)
    ensures forall t :: t in r <==> t in txs && keep(t)
    ensures |r| <= |txs|
  {
    if txs == [] then []
    else (if keep(txs[0]) then [txs[0]] else []) + Filter(txs[1..], keep)
  }

  /** Filtering twice by the same test removes nothing more. */
  lemma {:induction false} FilterIsIdempotent(txs: seq<Tx>, keep: Tx -> bool)
    ensures Filter(Filter(txs, keep), keep) == Filter(txs, keep)
  {
    if txs != [] {
      FilterIsIdempotent(txs[1..], keep);
      var once := Filter(txs, keep);
      if keep(txs[0]) {
        assert once == [txs[0]] + Filter(txs[1..], keep);
        assert once[0] == txs[0] && once[1..] == Filter(txs[1..], keep);
        assert Filter(once, keep) == [once[0]] + Filter(once[1..], keep);
      } else {
        assert once == [] + Filter(txs[1..], keep);
        assert once == Filter(txs[1..], keep);
      }
    }
  }

  /** Two filters commute. */
  lemma {:induction false} FiltersCommute(txs: seq<Tx>, f: Tx -> bool, g: Tx -> bool)
    ensures Filter(Filter(txs, f), g) == Filter(Filter(txs, g), f)
  {
    if txs != [] {
      FiltersCommute(txs[1..], f, g);
      var t := txs[0];
      var rest := txs[1..];
      if f(t) {
        assert Filter(txs, f) == [t] + Filter(rest, f);
        assert Filter(txs, f)[1..] == Filter(rest, f);
      } else {
        assert Filter(txs, f) == Filter(rest, f);
      }
      if g(t) {
        assert Filter(txs, g) == [t] + Filter(rest, g);
        assert Filter(txs, g)[1..] == Filter(rest, g);
      } else {
        assert Filter(txs, g) == Filter(rest, g);
      }
    }
  }

  function IdsOf(txs: seq<Tx>): set<Bytes>
  {
    set t | t in txs :: t.id
  }

  /** `RemoveList`: drop the transactions of a finalized list. */
  function RemoveList(p: Pool, list: seq<Tx>): (r: Pool)
    ensures forall t :: t in r.txs <==> t in p.txs && t.id !in IdsOf(list)
  {
    Pool(Filter(p.txs, NotListed(IdsOf(list))))
  }

  function NotListed(ids: set<Bytes>): Tx -> bool
  {
    (t: Tx) => t.id !in ids
  }

  function NotOlderThan(cutoff: int): Tx -> bool
  {
    (t: Tx) => t.timestamp >= cutoff
  }

  /** `RemoveOldTXs`: drop every transaction stamped before the cut-off. */
  function RemoveOldTXs(p: Pool, cutoff: int): (r: Pool)
    ensures forall t :: t in r.txs <==> t in p.txs && t.timestamp >= cutoff
  {
    Pool(Filter(p.txs, NotOlderThan(cutoff)))
  }

  /** What finalizing a list does to its pool: a transaction stays exactly
      when it is unlisted and not older than the cut-off. */
  function Prune(p: Pool, list: seq<Tx>, cutoff: int): (r: Pool)
    ensures forall t :: t in r.txs <==> t in p.txs && t.id !in IdsOf(list) && t.timestamp >= cutoff
  {
    RemoveOldTXs(RemoveList(p, list), cutoff)
  }

  /** Pruning with the same list and cut-off a second time removes nothing. */
  lemma PruneIsIdempotent(p: Pool, list: seq<Tx>, cutoff: int)
    ensures Prune(Prune(p, list, cutoff), list, cutoff) == Prune(p, list, cutoff)
  {
    var f := NotListed(IdsOf(list));
    var g := NotOlderThan(cutoff);
    var x := p.txs;
    calc {
      Filter(Filter(Filter(Filter(x, f), g), f), g);
      { FiltersCommute(Filter(Filter(x, f), g), f, g); }
      Filter(Filter(Filter(Filter(x, f), g), g), f);
      { FilterIsIdempotent(Filter(x, f), g); }
      Filter(Filter(Filter(x, f), g), f);
      { FiltersCommute(Filter(x, f), g, f); }
      Filter(Filter(Filter(x, f), f), g);
      { FilterIsIdempotent(x, f); }
      Filter(Filter(x, f), g);
    }
  }
}
